=== FILE: README.md ===
# LiSA core, modelled in Dafny

This project models the core of LiSA, a static analyser built on abstract
interpretation, as it appears in several snapshots of the repository:

- **Call resolution.** An unresolved call is resolved by the interprocedural
  analysis. It then runs the resolved call's semantics and takes over its
  meta-variables. The fixed-order resolution strategy matches formals to
  actuals by position.
- **Interface units.** These are a hierarchy of units with instance CFGs.
  Finalising a unit:
  - assumes an acyclic hierarchy;
  - validates its super units first;
  - registers it as an instance of every transitive super unit (`addInstance`
    reports an instance that is also a transitive super unit);
  - records, for each inherited member, the own member that overrides it
    (at most one).
- **Worst-case modular interprocedural analysis.** Every CFG is analysed once,
  from the same entry state, with its formal parameters bound to unknown values.
  Calls between CFGs are answered by the open-call policy.
- **Statement semantics:**
  - assignment, as the join of every pair of computed expressions;
  - IMP's `+`, as string concatenation or numeric addition by operand type;
  - logical or, with a boolean type gate.
- **Smaller value classes:**
  - formal parameters;
  - the `strcat` operator's type inference;
  - the `Star` regular expression of the string-automata domain;
  - the node descriptions of serializable graphs.

The abstract domain is a record of function values (`Analysis.Domain`).
Everything that calls into code this model does not contain is a parameter:
- the domain's operations;
- the CFG fixpoint;
- the superclass `equals` and `hashCode`;
- the open-call policy;
- the base unit validation.

Java exceptions and `null` results are `Result` errors. They are not
preconditions. Where a Java loop accumulates a value, the loop is a `method`
proved against a fold (`Folds.Fold` over `Folds.Product`), and the
properties are lemmas about that fold.

Files:
- `wrappers.dfy`, `types.dfy`, `symbolic.dfy`, `analysis.dfy`, `cfg.dfy`:
  `Option` and `Result`, types, symbolic expressions, the domain record, CFGs.
- `folds.dfy`: nested iteration and the failing fold.
- `unresolved_call.dfy`, `fixed_order_resolution.dfy`: calls.
- `interface_unit.dfy`: the unit hierarchy.
- `modular_worst_case.dfy`: the interprocedural analysis.
- `assignment.dfy`, `imp_add_or_concat.dfy`, `or.dfy`, `string_concat.dfy`:
  statements and operators.
- `parameter.dfy`, `star.dfy`, `serializable_node.dfy`: value classes.

## Model

| member | source | states |
|---|---|---|
| Calls.NewUnresolvedCall | lisa/lisa-sdk/src/main/java/it/unive/lisa/program/cfg/statement/call/UnresolvedCall.java:84-91 | a null target name fails with a null-pointer error and nothing else does (a null strategy is accepted); otherwise a fresh unresolved call carrying exactly the given strategy (possibly null), instance flag, CFG, location, name, static type and parameters |
| Calls.NewUntypedUnresolvedCall | lisa/lisa-sdk/src/main/java/it/unive/lisa/program/cfg/statement/call/UnresolvedCall.java:63-66 | the constructor without a static type fails exactly on a null name, with a null-pointer error; otherwise a fresh unresolved call with the given strategy, instance flag, CFG, location, name and parameters, typed `Untyped` |
| Calls.Call.constructor | lisa/lisa-sdk/src/main/java/it/unive/lisa/program/cfg/statement/call/UnresolvedCall.java:84-91 | every field is the argument given; runtime types and meta-variables start empty |
| Calls.EqualCallsHashEqually | lisa/lisa-sdk/src/main/java/it/unive/lisa/program/cfg/statement/call/UnresolvedCall.java:122-151 | two unresolved calls that `equals` accepts have the same `hashCode`, given a superclass hash that agrees with the superclass comparison |
| Calls.Call.Equals | lisa/lisa-sdk/src/main/java/it/unive/lisa/program/cfg/statement/call/UnresolvedCall.java:133-151 | a call equals itself; a different call is equal if and only if the superclass comparison holds, the other call is non-null and unresolved with the same strategy object (or both null) and the same instance flag, and the target names are equal |
| Calls.NullStrategiesCompareEqual | lisa/lisa-sdk/src/main/java/it/unive/lisa/program/cfg/statement/call/UnresolvedCall.java:122-151 | two distinct calls with a null strategy, the same flag and the same name are equal exactly when the superclass comparison holds; a null strategy never equals a non-null one; a null strategy adds 0 to the hash |
| Calls.Call.HashCode | lisa/lisa-sdk/src/main/java/it/unive/lisa/program/cfg/statement/call/UnresolvedCall.java:123-130 | no contract of its own: the hash combines the superclass hash, the instance flag, the strategy (0 when null) and the name, and its agreement with `equals` is `EqualCallsHashEqually` (32-bit wrap-around under "## Left out") |
| Calls.Call.ToString | lisa/lisa-sdk/src/main/java/it/unive/lisa/program/cfg/statement/call/UnresolvedCall.java:153-156 | the printed form is `[unresolved]`, the target name, `(`, the parameters joined by `, `, then `)`, each part at its exact position |
| Calls.Call.CallSemantics | lisa/lisa-sdk/src/main/java/it/unive/lisa/program/cfg/statement/call/UnresolvedCall.java:158-176 | a failed resolution becomes the semantic error `Unable to resolve call <call>` and changes nothing; otherwise the resolved call gets this call's runtime types and its semantics decides the result; a failure there propagates and leaves this call's meta-variables alone; on success the resolved call holds the meta-variables its semantics created, and this call gains every meta-variable the resolved call then holds |
| Calls.Call.InheritRuntimeTypesFrom | lisa/lisa-sdk/src/main/java/it/unive/lisa/program/cfg/statement/call/UnresolvedCall.java:184-186 | the call's runtime types become those of the other expression |
| InterfaceUnits.InterfaceHierarchy.constructor | lisa/lisa-sdk/src/main/java/it/unive/lisa/program/InterfaceUnit.java:46-52 | a new hierarchy has no instance CFGs, no super units, no instances, nothing finalised and no override links |
| InterfaceUnits.InterfaceHierarchy.CanBeInstantiated | lisa/lisa-sdk/src/main/java/it/unive/lisa/program/InterfaceUnit.java:54-57 | an interface unit is never instantiable |
| InterfaceUnits.InterfaceHierarchy.OwnMembers | lisa/lisa-sdk/src/main/java/it/unive/lisa/program/InterfaceUnit.java:68-72 | collects exactly the unit's own instance CFGs that pass the filter |
| InterfaceUnits.InterfaceHierarchy.MergeInherited | lisa/lisa-sdk/src/main/java/it/unive/lisa/program/InterfaceUnit.java:77-83 | adds only inherited members, none that is overridden by a member already collected, and every inherited member ends up collected or hidden by a collected member that overrides it |
| InterfaceUnits.InterfaceHierarchy.SearchCodeMembers | lisa/lisa-sdk/src/main/java/it/unive/lisa/program/InterfaceUnit.java:63-86 | the own filtered members are always in the result, and are the whole result without traversal; every result member passes the filter and is declared in the unit or one of its transitive super units; no inherited member is overridden by an own member; when traversing, every filtered own member of a direct super unit is in the result or hidden by a result member that overrides it |
| InterfaceUnits.InterfaceHierarchy.GetInstanceCfgs | lisa/lisa-sdk/src/main/java/it/unive/lisa/program/InterfaceUnit.java:59-61 | contains all own instance CFGs, is exactly them without traversal, and holds only CFGs of the unit and its transitive super units; when traversing, every instance CFG of a direct super unit is in it or hidden by a member of it that overrides it |
| InterfaceUnits.InterfaceHierarchy.GetMatchingInstanceCodeMembers | lisa/lisa-sdk/src/main/java/it/unive/lisa/program/InterfaceUnit.java:100-103 | always contains the own CFGs matching the signature, and without traversal is exactly them; in any case only matching CFGs of the unit and its transitive super units; when traversing, every matching CFG of a direct super unit is in it or hidden by a member of it that overrides it |
| InterfaceUnits.InterfaceHierarchy.AddSuperUnit | lisa/lisa-sdk/src/main/java/it/unive/lisa/program/InterfaceUnit.java:105-108 | adds the super unit and answers whether it was not already there |
| InterfaceUnits.InterfaceHierarchy.AddInstanceCfg | lisa/lisa-sdk/src/main/java/it/unive/lisa/program/InterfaceUnit.java:140-142 | registers the CFG under its signature exactly when that signature is free, and answers whether it did; otherwise nothing changes |
| InterfaceUnits.InterfaceHierarchy.AddInstance | lisa/lisa-sdk/src/main/java/it/unive/lisa/program/InterfaceUnit.java:149-157 | succeeds exactly when the new instance is not a transitive super unit of the unit (a hierarchy loop is a validation error); on success the instance is added to the unit and to every transitive super unit and nowhere else; it never adds anything but that instance |
| InterfaceUnits.InterfaceHierarchy.AddInstanceToSupers | lisa/lisa-sdk/src/main/java/it/unive/lisa/program/InterfaceUnit.java:155-156 | the loop over the direct super units: succeeds exactly when the instance is not an ancestor, and then adds it to exactly the ancestors |
| InterfaceUnits.InterfaceHierarchy.AddInstanceToSuper | lisa/lisa-sdk/src/main/java/it/unive/lisa/program/InterfaceUnit.java:156 | one direct super unit: the instance is added to it and its ancestors, which all lie among the unit's ancestors |
| InterfaceUnits.InterfaceHierarchy.AddOverrider | lisa/lisa-sdk/src/main/java/it/unive/lisa/program/InterfaceUnit.java:133 | every overridden member lists the overrider, and no other set changes |
| InterfaceUnits.InterfaceHierarchy.RecordOverride | lisa/lisa-sdk/src/main/java/it/unive/lisa/program/InterfaceUnit.java:129-134 | the implementing member overrides the super member and everything it overrides; only its own override set changes; each member it overrides lists it among its overriders; overrides and overridden-by stay mutually consistent |
| InterfaceUnits.ConsistentAfterOverride | lisa/lisa-sdk/src/main/java/it/unive/lisa/program/InterfaceUnit.java:131-133 | when only the overrider's override set changes, and only grows, and exactly the members it now overrides gain it as overrider, the overrides and overridden-by relations stay exact inverses of each other |
| InterfaceUnits.InterfaceHierarchy.OverrideFromSuper | lisa/lisa-sdk/src/main/java/it/unive/lisa/program/InterfaceUnit.java:123-134 | fails exactly when more than one own member implements the super member, with the `is implemented multiple times in unit` validation error; exactly one implementation records the override; none changes nothing |
| InterfaceUnits.InterfaceHierarchy.RecordInheritedOverrides | lisa/lisa-sdk/src/main/java/it/unive/lisa/program/InterfaceUnit.java:122-135 | override links only grow and stay consistent; a failure names a super member implemented more than once in the unit; on success every own member of a direct super unit has at most one implementation in the unit, and that implementation overrides it |
| InterfaceUnits.InterfaceHierarchy.RecordOverridesFrom | lisa/lisa-sdk/src/main/java/it/unive/lisa/program/InterfaceUnit.java:122-135 | one super unit: on success each of its own members has at most one implementation in the unit, which overrides it; a failure names a member implemented more than once |
| InterfaceUnits.InterfaceHierarchy.RecordOverridesOf | lisa/lisa-sdk/src/main/java/it/unive/lisa/program/InterfaceUnit.java:123-135 | the inner loop: on success every visited inherited member has at most one implementation in the unit, which overrides it; a failure names a visited member implemented more than once |
| InterfaceUnits.InterfaceHierarchy.ValidateSupers | lisa/lisa-sdk/src/main/java/it/unive/lisa/program/InterfaceUnit.java:117-118 | finalises every direct super unit: on success all transitive super units are finalised; finalised units stay closed |
| InterfaceUnits.InterfaceHierarchy.ValidateAndFinalize | lisa/lisa-sdk/src/main/java/it/unive/lisa/program/InterfaceUnit.java:110-138 | runs once: an already finalised unit returns at once and changes nothing; base-unit validation errors propagate; on success the unit and all its ancestors are finalised and the unit is an instance of every ancestor; on a first successful finalisation every own member of a direct super unit has at most one implementation in the unit (so a member implemented twice makes it fail) and that implementation overrides it; instances and override links only grow and stay consistent; a failed unit is not marked finalised |
| InterfaceUnits.InterfaceHierarchy.Finalize | lisa/lisa-sdk/src/main/java/it/unive/lisa/program/InterfaceUnit.java:120-137 | after the super units: on success the unit is finalised, is an instance of every ancestor and has its inherited overrides recorded; a failure names a member implemented more than once and marks nothing |
| InterfaceUnits.InterfaceHierarchy.Register | lisa/lisa-sdk/src/main/java/it/unive/lisa/program/InterfaceUnit.java:120 | the unit is added to the instances of itself and of every ancestor and nowhere else; finalised units stay closed |
| InterfaceUnits.InterfaceHierarchy.MarkFinalized | lisa/lisa-sdk/src/main/java/it/unive/lisa/program/InterfaceUnit.java:137 | the unit joins the finalised units, which stay closed, and from then on `isInstanceOf` holds for it and every ancestor |
| InterfaceUnits.InterfaceHierarchy.IsInstanceOf | lisa/lisa-sdk/src/main/java/it/unive/lisa/program/InterfaceUnit.java:159-162 | reflexive; for a finalised unit it is exactly membership in the other unit's instances |
| InterfaceUnits.InterfaceHierarchy.IsInstanceOfBeforeFinalisation | lisa/lisa-sdk/src/main/java/it/unive/lisa/program/InterfaceUnit.java:159-162 | before finalisation, `isInstanceOf` is exactly the reflexive transitive closure of the super-unit relation |
| ModularWorstCase.ModularWorstCaseAnalysis.constructor | lisa/lisa-core/src/main/java/it/unive/lisa/interprocedural/ModularWorstCaseAnalysis.java:72-74 | a new analysis has no program, no policy and no results |
| ModularWorstCase.ModularWorstCaseAnalysis.Init | lisa/lisa-core/src/main/java/it/unive/lisa/interprocedural/ModularWorstCaseAnalysis.java:117-122 | remembers the program and the policy and keeps the results |
| ModularWorstCase.ArgVariable | lisa/lisa-core/src/main/java/it/unive/lisa/interprocedural/ModularWorstCaseAnalysis.java:86-87 | the variable for a formal parameter is an identifier with the parameter's name and location, typed with all instances of its static type |
| ModularWorstCase.EntryStateBindsLastArgumentLast | lisa/lisa-core/src/main/java/it/unive/lisa/interprocedural/ModularWorstCaseAnalysis.java:83-89 | formal parameters are bound in declaration order, each on the state the earlier ones produced; an earlier failure is final |
| ModularWorstCase.PrepareEntryState | lisa/lisa-core/src/main/java/it/unive/lisa/interprocedural/ModularWorstCaseAnalysis.java:83-89 | the loop binding each formal parameter to an unknown value computes the entry state |
| ModularWorstCase.Analyze | lisa/lisa-core/src/main/java/it/unive/lisa/interprocedural/ModularWorstCaseAnalysis.java:82-95 | a failure while preparing the entry state or the working set becomes the fixpoint error `Error while creating the entrystate for <cfg>`; otherwise the CFG's own fixpoint on the prepared state |
| ModularWorstCase.AnalyzeCfg | lisa/lisa-core/src/main/java/it/unive/lisa/interprocedural/ModularWorstCaseAnalysis.java:82-95 | one iteration of the loop computes the outcome of analysing that CFG |
| ModularWorstCase.ModularWorstCaseAnalysis.Fixpoint | lisa/lisa-core/src/main/java/it/unive/lisa/interprocedural/ModularWorstCaseAnalysis.java:76-96 | without a program it fails and changes nothing; on success every CFG of the program has its result recorded; on failure the error is that of the first failing CFG, every earlier CFG has its result recorded, and the CFGs from the failing one on keep their old entries and gain none; results of other CFGs are kept |
| ModularWorstCase.ModularWorstCaseAnalysis.GetAnalysisResultsOf | lisa/lisa-core/src/main/java/it/unive/lisa/interprocedural/ModularWorstCaseAnalysis.java:98-101 | a singleton holding the CFG's recorded (possibly absent) result; a CFG never added fails with a null-pointer error |
| ModularWorstCase.ModularWorstCaseAnalysis.GetAbstractResultOfOpenCall | lisa/lisa-core/src/main/java/it/unive/lisa/interprocedural/ModularWorstCaseAnalysis.java:111-115 | the policy's answer for the call, given the call's data and its runtime types; without a policy a null-pointer error |
| ModularWorstCase.ModularWorstCaseAnalysis.GetAbstractResultOfCfgCall | lisa/lisa-core/src/main/java/it/unive/lisa/interprocedural/ModularWorstCaseAnalysis.java:103-109 | the same answer as for any open call with the same CFG, location, target, static type and parameters and no runtime types; with a policy, its answer for that data and the empty runtime-type set |
| ModularWorstCase.ModularWorstCaseAnalysis.Resolve | lisa/lisa-core/src/main/java/it/unive/lisa/interprocedural/ModularWorstCaseAnalysis.java:124-130 | a fresh open call with the same data and runtime types as the unresolved call; resolution never fails |
| Assignments.ExpressionStore.Put | lisa/src/main/java/it/unive/lisa/cfg/statement/Assignment.java:110-111 | the store maps the expression to the state and is otherwise unchanged |
| Assignments.Assignment.constructor | lisa/src/main/java/it/unive/lisa/cfg/statement/Assignment.java:49-51 | the assignment holds the given target and expression |
| Assignments.Assignment.ToString | lisa/src/main/java/it/unive/lisa/cfg/statement/Assignment.java:53-56 | the target's text, ` = `, then the expression's text, each at its exact position |
| Assignments.Assignment.JoinRow | lisa/src/main/java/it/unive/lisa/cfg/statement/Assignment.java:115-121 | the inner loop computes the fold of the assignment step over one left expression paired with every right expression |
| Assignments.Assignment.JoinAssignments | lisa/src/main/java/it/unive/lisa/cfg/statement/Assignment.java:113-121 | the nested loop computes the fold of the assignment step over every pair of left and right computed expressions, in iteration order |
| Assignments.SinglePairIsOneAssign | lisa/src/main/java/it/unive/lisa/cfg/statement/Assignment.java:113-127 | with one computed expression on each side and no meta-variables, the result is that single assignment |
| Assignments.NoPairLeavesNull | lisa/src/main/java/it/unive/lisa/cfg/statement/Assignment.java:113-127 | with no computed expression on a side the result stays null, and forgetting meta-variables from it fails |
| Assignments.Assignment.Semantics | lisa/src/main/java/it/unive/lisa/cfg/statement/Assignment.java:104-128 | the right operand runs on the entry state and the store, the left on the right's post-state and the store the right left behind; either failure propagates with the store as that operand left it; otherwise both post-states are stored on top of the operands' store and the result is the joined assignments followed by forgetting the right then the left meta-variables |
| Assignments.Assignment.TypeInference | lisa/src/main/java/it/unive/lisa/cfg/statement/Assignment.java:58-84 | the same steps and store threading on the operands' type inference; then the statement's runtime types become the result's last computed types, a null result fails, and any failure leaves the runtime types alone |
| IMPAddOrConcat.SelectOperator | lisa/lisa-imp/src/main/java/it/unive/lisa/imp/expressions/IMPAddOrConcat.java:67-87 | concatenation is chosen exactly for string with string or untyped, and untyped with string; numeric addition exactly for numeric with numeric or untyped, and untyped with numeric or untyped; never the logical or |
| IMPAddOrConcat.OperatorExpression | lisa/lisa-imp/src/main/java/it/unive/lisa/imp/expressions/IMPAddOrConcat.java:92-101 | the binary expression over both operands with the chosen operator, typed as the string type for a concatenation and by the statement's runtime types for an addition |
| IMPAddOrConcat.RowSemantics | lisa/lisa-imp/src/main/java/it/unive/lisa/imp/expressions/IMPAddOrConcat.java:66-102 | the inner loop computes the fold of the step over one left type paired with every right type |
| IMPAddOrConcat.BinarySemantics | lisa/lisa-imp/src/main/java/it/unive/lisa/imp/expressions/IMPAddOrConcat.java:53-105 | the nested loop computes the fold, from bottom, over every pair of left and right runtime types |
| IMPAddOrConcat.NoSelectionGivesBottom | lisa/lisa-imp/src/main/java/it/unive/lisa/imp/expressions/IMPAddOrConcat.java:62-105 | when no pair of types selects an operator the result is bottom |
| IMPAddOrConcat.StringOperandsConcatenate | lisa/lisa-imp/src/main/java/it/unive/lisa/imp/expressions/IMPAddOrConcat.java:62-105 | two string operands give exactly one `strcat` step typed as the string type, joined onto bottom |
| Parameters.Parameter.GetName | lisa/src/main/java/it/unive/lisa/program/cfg/Parameter.java:79-81 | yields the name |
| Parameters.Parameter.GetStaticType | lisa/src/main/java/it/unive/lisa/program/cfg/Parameter.java:88-90 | yields the static type |
| Parameters.Parameter.Equals | lisa/src/main/java/it/unive/lisa/program/cfg/Parameter.java:101-121 | equal exactly to the same location, name and static type; equal parameters hash equally |
| Parameters.HashCode | lisa/src/main/java/it/unive/lisa/program/cfg/Parameter.java:93-99 | no contract of its own: the hash combines the location's hash, the name's and the type's; its agreement with `equals` is stated by `Parameters.Parameter.Equals` (32-bit wrap-around under "## Left out") |
| Parameters.StringHash | lisa/src/main/java/it/unive/lisa/program/cfg/Parameter.java:96 | the hash of a name (Java's `String.hashCode` without wrap-around) is non-negative and at least the code of its last character |
| Parameters.StringHashAppend | lisa/src/main/java/it/unive/lisa/program/cfg/Parameter.java:96 | the hash of a concatenation is the front's hash times 31 to the length of the back, plus the back's hash |
| Parameters.StringHashIsWeightedSum | lisa/src/main/java/it/unive/lisa/program/cfg/Parameter.java:96 | the iterative hash equals the documented sum of each character times 31 to the number of characters after it |
| Parameters.New | lisa/src/main/java/it/unive/lisa/program/cfg/Parameter.java:66-72 | a null name or a null static type is a null-pointer error and nothing else fails; otherwise the getters give back what was passed, at the given location |
| Parameters.NewTyped | lisa/src/main/java/it/unive/lisa/program/cfg/Parameter.java:48-50 | fails exactly on a null name or type; otherwise that parameter at an unknown location |
| Parameters.NewUntyped | lisa/src/main/java/it/unive/lisa/program/cfg/Parameter.java:36-38 | fails exactly on a null name; otherwise an `Untyped` parameter with that name at an unknown location |
| Parameters.ToStringRoundTrip | lisa/src/main/java/it/unive/lisa/program/cfg/Parameter.java:123-126 | the printed form, split at its first space, gives back the type's name and the parameter's name when the type's name has no space |
| Parameters.Parameter.ToString | lisa/src/main/java/it/unive/lisa/program/cfg/Parameter.java:124-126 | the static type's printed name, one space, then the name, each at its exact position |
| LogicOr.NewOr | lisa/lisa-sdk/src/main/java/it/unive/lisa/program/cfg/statement/logic/Or.java:36-38 | the statement's symbol is `\|\|` and its static type the boolean type |
| LogicOr.BinarySemantics | lisa/lisa-sdk/src/main/java/it/unive/lisa/program/cfg/statement/logic/Or.java:40-63 | bottom when either operand's dynamic type is neither boolean nor untyped; otherwise the small step of a logical-or expression typed as the boolean type |
| LogicOr.GateIsSymmetric | lisa/lisa-sdk/src/main/java/it/unive/lisa/program/cfg/statement/logic/Or.java:50-53 | whether the type gate gives bottom does not depend on the order of the operands |
| SerializableGraph.IntegerCompare | lisa/lisa-sdk/src/main/java/it/unive/lisa/outputs/serializableGraph/SerializableNodeDescription.java:69 | zero exactly on equal ids, negative exactly when the first is smaller |
| SerializableGraph.SerializableNodeDescription.Empty | lisa/lisa-sdk/src/main/java/it/unive/lisa/outputs/serializableGraph/SerializableNodeDescription.java:9-10 | the no-argument constructor leaves id 0 and a null description |
| SerializableGraph.SerializableNodeDescription.constructor | lisa/lisa-sdk/src/main/java/it/unive/lisa/outputs/serializableGraph/SerializableNodeDescription.java:12-15 | the node holds the given id and description |
| SerializableGraph.SerializableNodeDescription.SetNodeId | lisa/lisa-sdk/src/main/java/it/unive/lisa/outputs/serializableGraph/SerializableNodeDescription.java:21-23 | sets the id and keeps the description |
| SerializableGraph.SerializableNodeDescription.SetDescription | lisa/lisa-sdk/src/main/java/it/unive/lisa/outputs/serializableGraph/SerializableNodeDescription.java:29-31 | sets the description and keeps the id |
| SerializableGraph.SerializableNodeDescription.Equals | lisa/lisa-sdk/src/main/java/it/unive/lisa/outputs/serializableGraph/SerializableNodeDescription.java:42-59 | equal exactly to a non-null node with the same id and an equal (or equally null) description |
| SerializableGraph.EqualNodesHashEqually | lisa/lisa-sdk/src/main/java/it/unive/lisa/outputs/serializableGraph/SerializableNodeDescription.java:33-59 | equal nodes have the same `hashCode` |
| SerializableGraph.SerializableNodeDescription.HashCode | lisa/lisa-sdk/src/main/java/it/unive/lisa/outputs/serializableGraph/SerializableNodeDescription.java:33-40 | no contract of its own: the hash combines the description's hash and the id; its agreement with `equals` is `EqualNodesHashEqually` (32-bit wrap-around under "## Left out") |
| SerializableGraph.SerializableNodeDescription.CompareTo | lisa/lisa-sdk/src/main/java/it/unive/lisa/outputs/serializableGraph/SerializableNodeDescription.java:66-72 | ordered by id first; equal ids defer to the descriptions' comparison; a null argument or a null own description fails |
| SerializableGraph.CompareToAntisymmetricOnIds | lisa/lisa-sdk/src/main/java/it/unive/lisa/outputs/serializableGraph/SerializableNodeDescription.java:66-72 | nodes with different ids compare non-zero and oppositely from either side |
| Regex.Simplify | lisa/lisa-analyses/src/main/java/it/unive/lisa/analysis/string/fsa/regex/Star.java:50-66 | a simplified star is epsilon or a star |
| Regex.SimplifyStarCases | lisa/lisa-analyses/src/main/java/it/unive/lisa/analysis/string/fsa/regex/Star.java:50-66 | an operand simplifying to the empty atom or the empty set gives epsilon, to a star gives that star, and anything else is starred |
| Regex.StarOfStarSimplifiesAsStar | lisa/lisa-analyses/src/main/java/it/unive/lisa/analysis/string/fsa/regex/Star.java:60-61 | starring twice simplifies as starring once |
| Regex.SimplifyBuildsNoStarOfStar | lisa/lisa-analyses/src/main/java/it/unive/lisa/analysis/string/fsa/regex/Star.java:50-66 | when the simplification of the other nodes never yields a star of a star, simplification never builds one either, however deep the nesting |
| Regex.StarEquals | lisa/lisa-analyses/src/main/java/it/unive/lisa/analysis/string/fsa/regex/Star.java:23-31 | a star equals exactly another star with an equal operand, and equal stars hash equally |
| Regex.Hash | lisa/lisa-analyses/src/main/java/it/unive/lisa/analysis/string/fsa/regex/Star.java:23-26 | a star hashes as its operand, so any tower of stars hashes as the expression under all the stars |
| Regex.ToString | lisa/lisa-analyses/src/main/java/it/unive/lisa/analysis/string/fsa/regex/Star.java:33-39 | a node other than a star prints as given; a star whose operand is an or or a one-character atom prints as the operand followed by `*`; any other star prints as `(`, the operand, `)*` |
| StringConcatTyping.TypeInference | lisa/lisa-sdk/src/main/java/it/unive/lisa/symbolic/value/operator/binary/StringConcat.java:36-41 | empty when either side has no string type, the singleton string type when both have one; never anything else |
| StringConcatTyping.TypeInferenceSymmetric | lisa/lisa-sdk/src/main/java/it/unive/lisa/symbolic/value/operator/binary/StringConcat.java:36-41 | the inferred set does not depend on the order of the arguments |
| StringConcatTyping.TypeInferenceMonotone | lisa/lisa-sdk/src/main/java/it/unive/lisa/symbolic/value/operator/binary/StringConcat.java:36-41 | widening either argument type set can only widen the inferred set |
| FixedOrderResolution.Matches | lisa/lisa-sdk/src/main/java/it/unive/lisa/program/cfg/statement/call/resolution/FixedOrderResolution.java:14-24 | true exactly when the arities agree and the per-position predicate holds at every index; false at any failing position |
| FixedOrderResolution.MatchIsPositional | lisa/lisa-sdk/src/main/java/it/unive/lisa/program/cfg/statement/call/resolution/FixedOrderResolution.java:14-24 | two per-position predicates that agree on every aligned triple give the same match |

## Left out

- **Interface units:**
  - Units are identified by name (`UnitId`).
  - Every per-unit field is a map keyed by unit name, inside one `InterfaceHierarchy` object.
  - The model has only interface units, so `addSuperUnit`'s cast to `InterfaceUnit` always succeeds here; a non-interface super unit, which makes the source throw a class-cast exception, is not modelled.
- InterfaceUnits.InterfaceHierarchy.SearchCodeMembers: requires an acyclic super-unit relation, given by a ghost `rank` (`Ranked`); on a cyclic hierarchy the source recurses without bound, and that is not modelled.
- InterfaceUnits.InterfaceHierarchy.GetInstanceCfgs: requires an acyclic super-unit relation, given by a ghost `rank` (`Ranked`); on a cyclic hierarchy the source recurses without bound, and that is not modelled.
- InterfaceUnits.InterfaceHierarchy.GetMatchingInstanceCodeMembers: requires an acyclic super-unit relation, given by a ghost `rank` (`Ranked`); on a cyclic hierarchy the source recurses without bound, and that is not modelled.
- InterfaceUnits.InterfaceHierarchy.AddInstance: requires an acyclic super-unit relation, given by a ghost `rank` (`Ranked`); on a cyclic hierarchy the source recurses without bound, and that is not modelled.
- InterfaceUnits.InterfaceHierarchy.AddInstanceToSupers: requires an acyclic super-unit relation, given by a ghost `rank` (`Ranked`); on a cyclic hierarchy the source recurses without bound, and that is not modelled.
- InterfaceUnits.InterfaceHierarchy.ValidateSupers: requires an acyclic super-unit relation, given by a ghost `rank` (`Ranked`); on a cyclic hierarchy the source recurses without bound, and that is not modelled.
- InterfaceUnits.InterfaceHierarchy.IsInstanceOf: requires an acyclic super-unit relation, given by a ghost `rank` (`Ranked`); on a cyclic hierarchy the source recurses without bound, and that is not modelled.
- InterfaceUnits.InterfaceHierarchy.AddInstanceToSuper: requires the same acyclic `rank`, for the same reason.
- InterfaceUnits.InterfaceHierarchy.OverrideFromSuper: requires the same acyclic `rank`, for the same reason.
- InterfaceUnits.InterfaceHierarchy.RecordInheritedOverrides: requires the same acyclic `rank`, for the same reason.
- InterfaceUnits.InterfaceHierarchy.RecordOverridesFrom: requires the same acyclic `rank`, for the same reason.
- InterfaceUnits.InterfaceHierarchy.RecordOverridesOf: requires the same acyclic `rank`, for the same reason.
- InterfaceUnits.InterfaceHierarchy.Finalize: requires the same acyclic `rank`, for the same reason.
- InterfaceUnits.InterfaceHierarchy.Register: requires the same acyclic `rank`, for the same reason.
- InterfaceUnits.InterfaceHierarchy.MarkFinalized: requires the same acyclic `rank`, for the same reason.
- InterfaceUnits.InterfaceHierarchy.IsInstanceOfBeforeFinalisation: requires the same acyclic `rank`, for the same reason.
- InterfaceUnits.InterfaceHierarchy.ValidateAndFinalize: requires an acyclic super-unit relation, given by a ghost `rank`.
  - On a cyclic hierarchy the Java code recurses without bound before its loop check can fire.
  - The base unit's `validateAndFinalize` is the parameter `unitValidation`. It is assumed to leave the hierarchy unchanged.
  - It also requires that the finalised units are closed (`ComputedClosed`). Adding a super unit to a unit after it has been finalised breaks this in the source, and such a call is outside the model.
  - Its override guarantee covers the own members of the direct super units and holds for a first finalisation; what an earlier finalisation recorded is not restated on a repeated call.
- InterfaceUnits.InterfaceHierarchy.OverrideFromSuper: the error message ends after the unit's name. The list of implementing members that follows it in the source is not modelled.
- InterfaceUnits.InterfaceHierarchy.SearchCodeMembers: states bounds, the no-hidden-member rule and completeness for the direct super units' own members, not the exact set.
  - When traversing, which inherited members are hidden depends on the iteration order of Java hash sets.
  - Completeness is not stated for members of more distant ancestors, because the overridden-by relation is not transitive in general.
- InterfaceUnits.InterfaceHierarchy.RecordInheritedOverrides: its success guarantee covers the own members of the direct super units, not every inherited member of more distant ancestors.
  - The order in which inherited members are visited is not modelled, so on failure it does not say which duplicate is reported.
- **Hash codes:**
  - Calls.Call.HashCode, Parameters.HashCode and SerializableGraph.SerializableNodeDescription.HashCode: Java's 32-bit `int` wrap-around is not modelled. Only hash/equals agreement is stated.
  - Parameters.StringHash: likewise for `String.hashCode`.
- ModularWorstCase.Analyze: the CFG in the error message is printed as its signature. `CFG.toString` is not part of this model.
- ModularWorstCase.ModularWorstCaseAnalysis.Fixpoint: some details are outside this model:
  - the iteration logger and its log output;
  - the generic program point;
  - parameter annotations;
  - the type cache, replaced by the `allInstances` parameter;
  - `WorkingSet.of`, replaced by the `workingSet` parameter.
- **Thread safety:** the concurrent hash maps of the source are plain maps; thread safety is not modelled.
- **Interfaces not part of this model:**
  - The abstract domain's operations, `Expression` semantics and type inference are parameters, and so is the per-CFG fixpoint. An operand's semantics is a function from the entry state and the expression store to its outcome and the store it leaves, so the order of its own stores is not modelled.
  - So are the superclass `equals` and `hashCode` of `Call` and `CodeElement`, and `SymbolicExpression.getDynamicType`.
  - So are the printing and simplification of the regular-expression nodes other than `Star`.
- **Getters:**
  - The getters of `UnresolvedCall` are the class's constant fields.
  - So are the getters of `SerializableNodeDescription` and `Star.getOperand`.
- SerializableGraph.SerializableNodeDescription: `toString` is not modelled, because decimal printing of an `int` and `SerializableValue.toString` are not part of this model.
- Regex.ToString: the one-character test measures the printed atom in characters; Java's `String.length` counts UTF-16 code units, which differ for characters outside the Basic Multilingual Plane.
- Regex.Simplify: its own contract states only the shape of a simplified star. The exact cases are stated by `SimplifyStarCases`, and the other nodes' simplification is the parameter `other`.
- Parameters.Parameter.ToString: a type's printed name is taken as given (`Types.Type.ToString`); Java's printing of a null type or name as `null` cannot arise, since the constructors reject both.
- The runners, the tests, `IMPNotEqual` and the `BinaryOperator` interface are context for the core and are not modelled.

=== FILE: analysis.dfy ===
/** The algebraic contract of an analysis state, as seen by the statements and
    by the interprocedural analysis. The domain's own code is not part of this
    model: each operation is a function value supplied by the caller. */
module Analysis {
  import opened Types
  import opened Symbolic
  import opened Wrappers

  /** The exceptions the modelled code throws or lets through. */
  datatype Error =
    | SemanticError(message: string)
    | SetupError(message: string)
    | FixpointError(message: string)
    | ValidationError(message: string)
    | NullPointer
    | ClassCast

  /** The operations of an analysis state `S` used by the core:
      `bottom`, `lub`, `assign`, `smallStepSemantics` and `forgetIdentifiers`,
      the computed expressions of the last evaluation (in iteration order) and,
      for the type-inference snapshot, the last computed runtime types. */
  datatype Domain<!S> = Domain(
    bottom: S -> S,
    lub: (S, S) -> S,
    assign: (S, SymbolicExpression, SymbolicExpression) -> Result<S, Error>,
    smallStep: (S, SymbolicExpression) -> Result<S, Error>,
    forget: (S, set<SymbolicExpression>) -> Result<S, Error>,
    computed: S -> seq<SymbolicExpression>,
    lastComputedTypes: S -> set<Type>)
}

=== FILE: assignment.dfy ===
/** The assignment statement `left = right` of the older snapshot, with its
    abstract semantics and its type inference. */
module Assignments {
  import opened Wrappers
  import opened Types
  import opened Symbolic
  import opened Analysis
  import opened Folds

  /** The store of the post-states computed for the sub-expressions of a CFG. */
  class ExpressionStore<S> {
    var store: map<Expression, S>

    constructor ()
      ensures store == map[]
    {
      store := map[];
    }

    method Put(e: Expression, s: S)
      modifies this
      ensures store == old(store)[e := s]
    {
      store := store[e := s];
    }
  }

  /** What an operand's semantics (or type inference) yields: its post-state
      or its failure, together with the expression store as the operand left
      it, since an operand stores the post-states of its own sub-expressions
      before it returns or fails. */
  datatype Outcome<S> = Outcome(result: Result<S, Error>, store: map<Expression, S>)

  /** One iteration of the nested loop: the left computed expression is cast
      to an identifier, assigned the right one in the left post-state, and
      the outcome becomes the result (the first time) or is joined onto it. */
  function AssignStep<S>(dom: Domain<S>, leftState: S): (Option<S>, (SymbolicExpression, SymbolicExpression)) -> Result<Option<S>, Error>
  {
    (acc: Option<S>, p: (SymbolicExpression, SymbolicExpression)) =>
      if !p.0.IsIdentifier() then Err(ClassCast)
      else match dom.assign(leftState, p.0, p.1)
        case Err(e) => Err(e)
        case Ok(tmp) => Ok(Some(if acc.None? then tmp else dom.lub(acc.value, tmp)))
  }

  lemma AssignStepValue<S>(dom: Domain<S>, leftState: S, acc: Option<S>, e1: SymbolicExpression, e2: SymbolicExpression)
    ensures var r := AssignStep(dom, leftState)(acc, (e1, e2));
            && (!e1.IsIdentifier() ==> r == Err(ClassCast))
            && (e1.IsIdentifier() && dom.assign(leftState, e1, e2).Err? ==> r == Err(dom.assign(leftState, e1, e2).error))
            && (e1.IsIdentifier() && dom.assign(leftState, e1, e2).Ok? ==>
                  var tmp := dom.assign(leftState, e1, e2).value;
                  r == Ok(Some(if acc.None? then tmp else dom.lub(acc.value, tmp))))
  {
  }

  /** `forgetIdentifiers` applied only to a non-empty set of meta-variables; a
      result that is still null cannot forget anything. */
  function ForgetIfAny<S>(dom: Domain<S>, r: Option<S>, metaVariables: set<SymbolicExpression>): Result<Option<S>, Error> {
    if metaVariables == {} then Ok(r)
    else if r.None? then Err(NullPointer)
    else match dom.forget(r.value, metaVariables)
      case Err(e) => Err(e)
      case Ok(s) => Ok(Some(s))
  }

  /** The join, over every pair of a left and a right computed expression, of
      the assignment in the left post-state, followed by forgetting the
      meta-variables of the right and then of the left operand. `None` is the
      null result left when there is no pair. */
  function Combine<S>(dom: Domain<S>, rightState: S, leftState: S,
                      rightMeta: set<SymbolicExpression>, leftMeta: set<SymbolicExpression>): Result<Option<S>, Error>
  {
    var joined :- Fold(AssignStep(dom, leftState), Product(dom.computed(leftState), dom.computed(rightState)), None);
    var afterRight :- ForgetIfAny(dom, joined, rightMeta);
    ForgetIfAny(dom, afterRight, leftMeta)
  }

  /** With exactly one pair of computed expressions and no meta-variables,
      the result is that one assignment, not joined with anything. */
  lemma SinglePairIsOneAssign<S>(dom: Domain<S>, rightState: S, leftState: S, id: SymbolicExpression, value: SymbolicExpression)
    requires dom.computed(leftState) == [id] && dom.computed(rightState) == [value] && id.IsIdentifier()
    ensures var a := dom.assign(leftState, id, value);
            Combine(dom, rightState, leftState, {}, {}) == if a.Err? then Err(a.error) else Ok(Some(a.value))
  {
    assert Product([id], [value]) == [(id, value)] by {
      RowAt(id, [value], 0);
      assert [value][1..] == [];
      assert [id][1..] == [];
    }
    AssignStepValue(dom, leftState, None, id, value);
    FoldCons(AssignStep(dom, leftState), (id, value), [], None);
    assert [(id, value)] + [] == [(id, value)];
  }

  /** When either operand computes no expression nothing is assigned: the
      result stays null, and forgetting meta-variables from it fails. */
  lemma NoPairLeavesNull<S>(dom: Domain<S>, rightState: S, leftState: S,
                            rightMeta: set<SymbolicExpression>, leftMeta: set<SymbolicExpression>)
    requires dom.computed(leftState) == [] || dom.computed(rightState) == []
    ensures rightMeta == {} && leftMeta == {} ==> Combine(dom, rightState, leftState, rightMeta, leftMeta) == Ok(None)
    ensures rightMeta != {} || leftMeta != {} ==> Combine(dom, rightState, leftState, rightMeta, leftMeta) == Err(NullPointer)
  {
    ProductOfEmpty(dom.computed(leftState), dom.computed(rightState));
  }

  class Assignment {
    const left: Expression
    const right: Expression
    var runtimeTypes: set<Type>

    constructor (left: Expression, right: Expression)
      ensures this.left == left && this.right == right && runtimeTypes == {}
    {
      this.left := left;
      this.right := right;
      runtimeTypes := {};
    }

    /** `toString`: the target, ` = `, then the assigned expression. */
    function ToString(): (r: string)
      ensures |r| == |left.text| + 3 + |right.text|
      ensures r[..|left.text|] == left.text && r[|left.text|..|left.text| + 3] == " = "
      ensures r[|left.text| + 3..] == right.text
    {
      left.text + " = " + right.text
    }

    /** The nested loop of `semantics`: joins the assignments over every pair
        of computed expressions. */
    method JoinAssignments<S>(dom: Domain<S>, rightState: S, leftState: S) returns (r: Result<Option<S>, Error>)
      ensures r == Fold(AssignStep(dom, leftState), Product(dom.computed(leftState), dom.computed(rightState)), None)
    {
      ghost var step := AssignStep(dom, leftState);
      ghost var spec := Fold(step, Product(dom.computed(leftState), dom.computed(rightState)), None);
      var ls, rs := dom.computed(leftState), dom.computed(rightState);
      var result: Option<S> := None;
      var i := 0;
      while i < |ls|
        invariant 0 <= i <= |ls|
        invariant Fold(step, Product(ls[i..], rs), result) == spec
      {
        ProductAt(ls, rs, i);
        FoldAppend(step, Row(ls[i], rs), Product(ls[i + 1..], rs), result);
        var row := JoinRow(dom, leftState, ls[i], rs, result);
        if row.Err? {
          return row;
        }
        result := row.value;
        i := i + 1;
      }
      assert ls[i..] == [];
      return Ok(result);
    }

    /** The inner loop of the assignment semantics: one left expression
        assigned every right expression in turn. */
    method JoinRow<S>(dom: Domain<S>, leftState: S, expr1: SymbolicExpression, rs: seq<SymbolicExpression>,
                      acc: Option<S>)
      returns (r: Result<Option<S>, Error>)
      ensures r == Fold(AssignStep(dom, leftState), Row(expr1, rs), acc)
    {
      ghost var step := AssignStep(dom, leftState);
      var result := acc;
      var j := 0;
      while j < |rs|
        invariant 0 <= j <= |rs|
        invariant Fold(step, Row(expr1, rs[j..]), result) == Fold(step, Row(expr1, rs), acc)
      {
        var expr2 := rs[j];
        RowAt(expr1, rs, j);
        FoldCons(step, (expr1, expr2), Row(expr1, rs[j + 1..]), result);
        AssignStepValue(dom, leftState, result, expr1, expr2);
        if !expr1.IsIdentifier() {
          return Err(ClassCast);
        }
        var tmp := dom.assign(leftState, expr1, expr2);
        if tmp.Err? {
          return Err(tmp.error);
        }
        if result.None? {
          result := Some(tmp.value);
        } else {
          result := Some(dom.lub(result.value, tmp.value));
        }
        j := j + 1;
      }
      assert rs[j..] == [];
      return Ok(result);
    }

    /** `semantics`: the right operand is evaluated on the entry state and the
        left one on the right's post-state, each of them seeing and updating
        the expression store; both post-states are then stored under their
        expressions, the assignments are joined and the meta-variables
        forgotten. `rightSemantics` and `leftSemantics` are the operands' own
        semantics. */
    method Semantics<S>(dom: Domain<S>, entryState: S, rightSemantics: (S, map<Expression, S>) -> Outcome<S>,
                        leftSemantics: (S, map<Expression, S>) -> Outcome<S>, rightMeta: set<SymbolicExpression>,
                        leftMeta: set<SymbolicExpression>, expressions: ExpressionStore<S>)
      returns (r: Result<Option<S>, Error>)
      modifies expressions
      ensures var ro := rightSemantics(entryState, old(expressions.store));
              && (ro.result.Err? ==> r == Err(ro.result.error) && expressions.store == ro.store)
              && (ro.result.Ok? ==>
                    var lo := leftSemantics(ro.result.value, ro.store);
                    && (lo.result.Err? ==> r == Err(lo.result.error) && expressions.store == lo.store)
                    && (lo.result.Ok? ==>
                          && expressions.store == lo.store[right := ro.result.value][left := lo.result.value]
                          && r == Combine(dom, ro.result.value, lo.result.value, rightMeta, leftMeta)))
    {
      var ro := rightSemantics(entryState, expressions.store);
      expressions.store := ro.store;
      var rightState :- ro.result;
      var lo := leftSemantics(rightState, expressions.store);
      expressions.store := lo.store;
      var leftState :- lo.result;
      expressions.Put(right, rightState);
      expressions.Put(left, leftState);
      var joined :- JoinAssignments(dom, rightState, leftState);
      var result := joined;
      if rightMeta != {} {
        if result.None? {
          return Err(NullPointer);
        }
        var forgotten :- dom.forget(result.value, rightMeta);
        result := Some(forgotten);
      }
      if leftMeta != {} {
        if result.None? {
          return Err(NullPointer);
        }
        var forgotten :- dom.forget(result.value, leftMeta);
        result := Some(forgotten);
      }
      return Ok(result);
    }

    /** `typeInference`: the same steps as `semantics`, on the operands' type
        inference, after which the statement's runtime types become the last
        computed types of the result (a null result fails there). */
    method TypeInference<S>(dom: Domain<S>, entryState: S, rightInference: (S, map<Expression, S>) -> Outcome<S>,
                            leftInference: (S, map<Expression, S>) -> Outcome<S>, rightMeta: set<SymbolicExpression>,
                            leftMeta: set<SymbolicExpression>, expressions: ExpressionStore<S>)
      returns (r: Result<S, Error>)
      modifies this, expressions
      ensures var ro := rightInference(entryState, old(expressions.store));
              && (ro.result.Err? ==>
                    r == Err(ro.result.error) && expressions.store == ro.store && runtimeTypes == old(runtimeTypes))
              && (ro.result.Ok? ==>
                    var lo := leftInference(ro.result.value, ro.store);
                    && (lo.result.Err? ==>
                          r == Err(lo.result.error) && expressions.store == lo.store && runtimeTypes == old(runtimeTypes))
                    && (lo.result.Ok? ==>
                          var combined := Combine(dom, ro.result.value, lo.result.value, rightMeta, leftMeta);
                          && expressions.store == lo.store[right := ro.result.value][left := lo.result.value]
                          && (combined.Err? ==> r == Err(combined.error) && runtimeTypes == old(runtimeTypes))
                          && (combined == Ok(None) ==> r == Err(NullPointer) && runtimeTypes == old(runtimeTypes))
                          && (combined.Ok? && combined.value.Some? ==>
                                r == Ok(combined.value.value) &&
                                runtimeTypes == dom.lastComputedTypes(combined.value.value))))
    {
      var result := Semantics(dom, entryState, rightInference, leftInference, rightMeta, leftMeta, expressions);
      if result.Err? {
        return Err(result.error);
      }
      if result.value.None? {
        return Err(NullPointer);
      }
      runtimeTypes := dom.lastComputedTypes(result.value.value);
      return Ok(result.value.value);
    }
  }
}

=== FILE: cfg.dfy ===
/** The parts of a control-flow graph the core reads: its identity, its
    descriptor's signature string and its formal parameters in declaration
    order. The graph itself (nodes, edges, its fixpoint) is not part of this
    model. */
module Cfgs {
  import opened Parameters

  datatype Cfg = Cfg(id: nat, signature: string, args: seq<Parameter>)
}

=== FILE: fixed_order_resolution.dfy ===
/** The fixed-order resolution strategy: formals and actuals are matched by
    position only, never reordered by name. */
module FixedOrderResolution {

  /** What `matches(Parameter[], Expression[])` promises: equal arity and the
      per-position predicate holding at every index. */
  ghost predicate AllPositionsMatch<P, A>(formals: seq<P>, actuals: seq<A>, matchesAt: (nat, P, A) -> bool) {
    |formals| == |actuals| &&
    forall i :: 0 <= i < |formals| ==> matchesAt(i, formals[i], actuals[i])
  }

  /** `FixedOrderResolution.matches`: an arity check followed by a scan that
      stops at the first position whose predicate fails. `matchesAt` is the
      strategy's abstract `matches(pos, formal, actual)`. */
  method Matches<P, A>(formals: seq<P>, actuals: seq<A>, matchesAt: (nat, P, A) -> bool) returns (r: bool)
    ensures r <==> AllPositionsMatch(formals, actuals, matchesAt)
    ensures |formals| != |actuals| ==> !r
    ensures forall i :: 0 <= i < |formals| && i < |actuals| && !matchesAt(i, formals[i], actuals[i]) ==> !r
    ensures formals == [] && actuals == [] ==> r
  {
    if |formals| != |actuals| {
      return false;
    }
    var i := 0;
    while i < |formals|
      invariant 0 <= i <= |formals|
      invariant forall k :: 0 <= k < i ==> matchesAt(k, formals[k], actuals[k])
    {
      if !matchesAt(i, formals[i], actuals[i]) {
        return false;
      }
      i := i + 1;
    }
    return true;
  }

  /** Matching is positional: two strategies that agree on every
      `(i, formals[i], actuals[i])` triple agree on the whole match, whatever
      they say about a formal paired with any other actual. */
  lemma {:induction false} MatchIsPositional<P, A>(formals: seq<P>, actuals: seq<A>,
                                                   m1: (nat, P, A) -> bool, m2: (nat, P, A) -> bool)
    requires forall i :: 0 <= i < |formals| && i < |actuals| ==>
               m1(i, formals[i], actuals[i]) == m2(i, formals[i], actuals[i])
    ensures AllPositionsMatch(formals, actuals, m1) <==> AllPositionsMatch(formals, actuals, m2)
  {
  }
}

=== FILE: folds.dfy ===
/** Nested iteration over two sequences and the left-to-right fold of a
    step that may throw: the shapes of the statements' accumulating loops. */
module Folds {
  import opened Wrappers

  /** The pairs `(a, b)` for every `b` of `bs`, in order. */
  function Row<A, B>(a: A, bs: seq<B>): seq<(A, B)> {
    if bs == [] then [] else [(a, bs[0])] + Row(a, bs[1..])
  }

  /** The pairs visited by `for (a : as) for (b : bs)`, in visiting order. */
  function Product<A, B>(xs: seq<A>, bs: seq<B>): seq<(A, B)> {
    if xs == [] then [] else Row(xs[0], bs) + Product(xs[1..], bs)
  }

  /** Applies `step` to each item in turn, stopping at the first failure. */
  function Fold<X, S, E>(step: (S, X) -> Result<S, E>, items: seq<X>, acc: S): Result<S, E> {
    if items == [] then Ok(acc)
    else match step(acc, items[0])
      case Err(e) => Err(e)
      case Ok(next) => Fold(step, items[1..], next)
  }

  lemma FoldCons<X, S, E>(step: (S, X) -> Result<S, E>, x: X, rest: seq<X>, acc: S)
    ensures step(acc, x).Err? ==> Fold(step, [x] + rest, acc) == Err(step(acc, x).error)
    ensures step(acc, x).Ok? ==> Fold(step, [x] + rest, acc) == Fold(step, rest, step(acc, x).value)
  {
    assert ([x] + rest)[0] == x && ([x] + rest)[1..] == rest;
  }

  lemma RowAt<A, B>(a: A, bs: seq<B>, j: nat)
    requires j < |bs|
    ensures Row(a, bs[j..]) == [(a, bs[j])] + Row(a, bs[j + 1..])
  {
    assert bs[j..][1..] == bs[j + 1..];
  }

  lemma ProductAt<A, B>(xs: seq<A>, bs: seq<B>, i: nat)
    requires i < |xs|
    ensures Product(xs[i..], bs) == Row(xs[i], bs) + Product(xs[i + 1..], bs)
  {
    assert xs[i..][1..] == xs[i + 1..];
  }

  lemma {:induction false} RowMembers<A, B>(a: A, bs: seq<B>)
    ensures |Row(a, bs)| == |bs|
    ensures forall k :: 0 <= k < |bs| ==> Row(a, bs)[k] == (a, bs[k])
  {
    if bs != [] {
      RowMembers(a, bs[1..]);
    }
  }

  /** Every visited pair is made of an element of each sequence. */
  lemma {:induction false} ProductMembers<A, B>(xs: seq<A>, bs: seq<B>)
    ensures forall p: (A, B) :: p in Product(xs, bs) ==> p.0 in xs && p.1 in bs
  {
    if xs != [] {
      ProductMembers(xs[1..], bs);
      RowMembers(xs[0], bs);
      forall p: (A, B) | p in Product(xs, bs)
        ensures p.0 in xs && p.1 in bs
      {
        if p in Row(xs[0], bs) {
          var k :| 0 <= k < |Row(xs[0], bs)| && Row(xs[0], bs)[k] == p;
        } else {
          assert p in Product(xs[1..], bs);
          assert p.0 in xs[1..];
        }
      }
    }
  }

  lemma {:induction false} ProductOfEmpty<A, B>(xs: seq<A>, bs: seq<B>)
    requires xs == [] || bs == []
    ensures Product(xs, bs) == []
  {
    if xs != [] {
      ProductOfEmpty(xs[1..], bs);
    }
  }

  /** A fold whose steps all leave the accumulator as it is returns it. */
  lemma {:induction false} FoldOfIdleSteps<X, S, E>(step: (S, X) -> Result<S, E>, items: seq<X>, acc: S)
    requires forall x :: x in items ==> step(acc, x) == Ok(acc)
    ensures Fold(step, items, acc) == Ok(acc)
  {
    if items != [] {
      FoldOfIdleSteps(step, items[1..], acc);
    }
  }

  /** Folding a concatenation folds the first part, then the second part
      from where the first one ended; a failure in the first part is final. */
  lemma {:induction false} FoldAppend<X, S, E>(step: (S, X) -> Result<S, E>, xs: seq<X>, ys: seq<X>, acc: S)
    ensures Fold(step, xs, acc).Err? ==> Fold(step, xs + ys, acc) == Fold(step, xs, acc)
    ensures Fold(step, xs, acc).Ok? ==> Fold(step, xs + ys, acc) == Fold(step, ys, Fold(step, xs, acc).value)
  {
    if xs != [] {
      assert (xs + ys)[0] == xs[0] && (xs + ys)[1..] == xs[1..] + ys;
      if step(acc, xs[0]).Ok? {
        FoldAppend(step, xs[1..], ys, step(acc, xs[0]).value);
      }
    } else {
      assert xs + ys == ys;
    }
  }
}

=== FILE: imp_add_or_concat.dfy ===
/** IMP's `+`: string concatenation or numeric addition, chosen for each pair
    of runtime types of the two operands. */
module IMPAddOrConcat {
  import opened Wrappers
  import opened Types
  import opened Symbolic
  import opened Analysis
  import opened Folds

  /** The operator selected for one pair of operand types; `None` for a pair
      that is neither a string nor a numeric combination. Two untyped
      operands are taken as a numeric sum. */
  function SelectOperator(tleft: Type, tright: Type): (r: Option<BinaryOperator>)
    ensures r == Some(StringConcat) <==>
              (tleft.IsStringType() && (tright.IsStringType() || tright.IsUntyped())) ||
              (tleft.IsUntyped() && tright.IsStringType())
    ensures r == Some(NumericNonOverflowingAdd) <==>
              (tleft.IsNumericType() && (tright.IsNumericType() || tright.IsUntyped())) ||
              (tleft.IsUntyped() && (tright.IsNumericType() || tright.IsUntyped()))
    ensures r != Some(LogicalOr)
  {
    if tleft.IsStringType() then
      if tright.IsStringType() || tright.IsUntyped() then Some(StringConcat) else None
    else if tleft.IsNumericType() then
      if tright.IsNumericType() || tright.IsUntyped() then Some(NumericNonOverflowingAdd) else None
    else if tleft.IsUntyped() then
      if tright.IsStringType() then Some(StringConcat)
      else if tright.IsNumericType() || tright.IsUntyped() then Some(NumericNonOverflowingAdd)
      else None
    else None
  }

  /** The symbolic expression evaluated for a selected operator: a
      concatenation is typed as the common string type alone, an addition by
      the statement's runtime types. */
  function OperatorExpression(op: BinaryOperator, runtimeTypes: seq<Type>, left: SymbolicExpression,
                              right: SymbolicExpression, location: CodeLocation): (e: SymbolicExpression)
    ensures e.BinaryExpression? && e.op == op && e.left == left && e.right == right
    ensures op == StringConcat ==> e.types == [Str]
    ensures op != StringConcat ==> e.types == runtimeTypes
  {
    BinaryExpression(if op == StringConcat then [Str] else runtimeTypes, left, right, op, location)
  }

  /** One iteration of the nested loop: a pair that selects no operator leaves
      the accumulated state alone; otherwise the small step of the selected
      expression is joined onto it. */
  function Step<S>(dom: Domain<S>, state: S, runtimeTypes: seq<Type>, left: SymbolicExpression,
                   right: SymbolicExpression, location: CodeLocation): (S, (Type, Type)) -> Result<S, Error>
  {
    (acc: S, p: (Type, Type)) =>
      match SelectOperator(p.0, p.1)
      case None => Ok(acc)
      case Some(op) =>
        match dom.smallStep(state, OperatorExpression(op, runtimeTypes, left, right, location))
        case Err(e) => Err(e)
        case Ok(s) => Ok(dom.lub(acc, s))
  }

  /** What `binarySemantics` computes: the fold, from bottom, over every pair
      of a left and a right runtime type. */
  function AddOrConcat<S>(dom: Domain<S>, state: S, runtimeTypes: seq<Type>, left: SymbolicExpression,
                          right: SymbolicExpression, location: CodeLocation): Result<S, Error>
  {
    Fold(Step(dom, state, runtimeTypes, left, right, location), Product(left.types, right.types), dom.bottom(state))
  }

  lemma StepValue<S>(dom: Domain<S>, state: S, runtimeTypes: seq<Type>, left: SymbolicExpression,
                     right: SymbolicExpression, location: CodeLocation, acc: S, tl: Type, tr: Type)
    ensures var r := Step(dom, state, runtimeTypes, left, right, location)(acc, (tl, tr));
            var op := SelectOperator(tl, tr);
            && (op.None? ==> r == Ok(acc))
            && (op.Some? ==>
                  var s := dom.smallStep(state, OperatorExpression(op.value, runtimeTypes, left, right, location));
                  r == if s.Err? then Err(s.error) else Ok(dom.lub(acc, s.value)))
  {
  }

  /** `binarySemantics`: the nested loop over the operands' runtime types. */
  method BinarySemantics<S>(dom: Domain<S>, state: S, runtimeTypes: seq<Type>, left: SymbolicExpression,
                            right: SymbolicExpression, location: CodeLocation) returns (r: Result<S, Error>)
    ensures r == AddOrConcat(dom, state, runtimeTypes, left, right, location)
  {
    ghost var step := Step(dom, state, runtimeTypes, left, right, location);
    ghost var spec := AddOrConcat(dom, state, runtimeTypes, left, right, location);
    var ls, rs := left.types, right.types;
    var result := dom.bottom(state);
    var i := 0;
    while i < |ls|
      invariant 0 <= i <= |ls|
      invariant Fold(step, Product(ls[i..], rs), result) == spec
    {
      ProductAt(ls, rs, i);
      FoldAppend(step, Row(ls[i], rs), Product(ls[i + 1..], rs), result);
      var row := RowSemantics(dom, state, runtimeTypes, left, right, location, ls[i], rs, result);
      if row.Err? {
        return row;
      }
      result := row.value;
      i := i + 1;
    }
    assert ls[i..] == [];
    return Ok(result);
  }

  /** The inner loop of `binarySemantics`: one left type against every
      right type, accumulating onto `acc`. */
  method RowSemantics<S>(dom: Domain<S>, state: S, runtimeTypes: seq<Type>, left: SymbolicExpression,
                         right: SymbolicExpression, location: CodeLocation, tleft: Type, rs: seq<Type>, acc: S)
    returns (r: Result<S, Error>)
    ensures r == Fold(Step(dom, state, runtimeTypes, left, right, location), Row(tleft, rs), acc)
  {
    ghost var step := Step(dom, state, runtimeTypes, left, right, location);
    var result := acc;
    var j := 0;
    while j < |rs|
      invariant 0 <= j <= |rs|
      invariant Fold(step, Row(tleft, rs[j..]), result) == Fold(step, Row(tleft, rs), acc)
    {
      var tright := rs[j];
      RowAt(tleft, rs, j);
      FoldCons(step, (tleft, tright), Row(tleft, rs[j + 1..]), result);
      StepValue(dom, state, runtimeTypes, left, right, location, result, tleft, tright);
      var op := SelectOperator(tleft, tright);
      if op.Some? {
        var s := dom.smallStep(state, OperatorExpression(op.value, runtimeTypes, left, right, location));
        if s.Err? {
          return Err(s.error);
        }
        result := dom.lub(result, s.value);
      }
      j := j + 1;
    }
    assert rs[j..] == [];
    return Ok(result);
  }

  /** When no pair of runtime types selects an operator, nothing is evaluated
      and the result is bottom. */
  lemma NoSelectionGivesBottom<S>(dom: Domain<S>, state: S, runtimeTypes: seq<Type>, left: SymbolicExpression,
                                  right: SymbolicExpression, location: CodeLocation)
    requires forall tl, tr :: tl in left.types && tr in right.types ==> SelectOperator(tl, tr).None?
    ensures AddOrConcat(dom, state, runtimeTypes, left, right, location) == Ok(dom.bottom(state))
  {
    ProductMembers(left.types, right.types);
    FoldOfIdleSteps(Step(dom, state, runtimeTypes, left, right, location), Product(left.types, right.types),
                    dom.bottom(state));
  }

  /** Two string operands with one runtime type each: exactly one `strcat`
      step, typed as the string type, joined onto bottom. */
  lemma StringOperandsConcatenate<S>(dom: Domain<S>, state: S, runtimeTypes: seq<Type>, left: SymbolicExpression,
                                     right: SymbolicExpression, location: CodeLocation)
    requires left.types == [Str] && right.types == [Str]
    ensures var e := BinaryExpression([Str], left, right, StringConcat, location);
            AddOrConcat(dom, state, runtimeTypes, left, right, location) ==
              if dom.smallStep(state, e).Err? then Err(dom.smallStep(state, e).error)
              else Ok(dom.lub(dom.bottom(state), dom.smallStep(state, e).value))
  {
    assert Product(left.types, right.types) == [(Str, Str)] by {
      assert Row(Str, right.types) == [(Str, Str)] + Row(Str, right.types[1..]);
      assert right.types[1..] == [];
      assert left.types[1..] == [];
    }
    var step := Step(dom, state, runtimeTypes, left, right, location);
    StepValue(dom, state, runtimeTypes, left, right, location, dom.bottom(state), Str, Str);
    FoldCons(step, (Str, Str), [], dom.bottom(state));
    assert [(Str, Str)] + [] == [(Str, Str)];
  }
}

=== FILE: interface_unit.dfy ===
/** Interface units and their hierarchy. Every interface unit of the program
    is identified by its name; the per-unit state of the source (the
    signature-indexed table of instance CFGs, the direct super units, the
    instances, the "hierarchy computed" flag) is kept in maps indexed by unit,
    and the override bookkeeping of CFG descriptors in maps indexed by CFG. A
    unit absent from a map has the empty table, no super units and no
    instances. */
module InterfaceUnits {
  import opened Wrappers
  import opened Analysis
  import opened Cfgs

  type UnitId = string

  /** The set a multi-valued map holds for `k`, empty when `k` is absent. */
  function Get<K, V>(m: map<K, set<V>>, k: K): set<V> {
    if k in m then m[k] else {}
  }

  /** Every set of `before` is contained in the corresponding one of `after`. */
  ghost predicate Grows<K(!new), V>(before: map<K, set<V>>, after: map<K, set<V>>) {
    forall k :: Get(before, k) <= Get(after, k)
  }

  /** `after` is `before` with `v` added to the sets of exactly the keys in `keys`. */
  ghost predicate AddedTo<K(!new), V>(before: map<K, set<V>>, after: map<K, set<V>>, keys: set<K>, v: V) {
    forall k :: Get(after, k) == Get(before, k) + (if k in keys then {v} else {})
  }

  /** `after` adds nothing but `v` to the sets of `before`. */
  ghost predicate AddsAtMost<K(!new), V>(before: map<K, set<V>>, after: map<K, set<V>>, v: V) {
    forall k :: Get(before, k) <= Get(after, k) <= Get(before, k) + {v}
  }

  lemma GrowsTransitive<K(!new), V>(a: map<K, set<V>>, b: map<K, set<V>>, c: map<K, set<V>>)
    requires Grows(a, b) && Grows(b, c)
    ensures Grows(a, c)
  {
  }

  lemma AddedToCompose<K(!new), V>(a: map<K, set<V>>, b: map<K, set<V>>, c: map<K, set<V>>, keys1: set<K>, keys2: set<K>, v: V)
    requires AddedTo(a, b, keys1, v) && AddedTo(b, c, keys2, v)
    ensures AddedTo(a, c, keys1 + keys2, v)
  {
  }

  lemma AddsAtMostCompose<K(!new), V>(a: map<K, set<V>>, b: map<K, set<V>>, c: map<K, set<V>>, v: V)
    requires AddsAtMost(a, b, v) && AddsAtMost(b, c, v)
    ensures AddsAtMost(a, c, v)
  {
  }

  /** The filter that accepts every code member. */
  function AnyCfg(): Cfg -> bool {
    (c: Cfg) => true
  }

  /** The filter accepting the members whose descriptor matches the
      signature of `sup`, given the descriptors' signature matching. */
  function MatchesSignatureOf(matches: (Cfg, Cfg) -> bool, sup: Cfg): Cfg -> bool {
    (c: Cfg) => matches(c, sup)
  }

  /** The hierarchy is acyclic, as witnessed by a rank that decreases
      from every unit to its super units. */
  ghost predicate Ranked(supers: map<UnitId, set<UnitId>>, rank: UnitId -> nat) {
    forall u, s :: s in Get(supers, u) ==> rank(s) < rank(u)
  }

  /** The transitive super units of `u`. */
  ghost function Ancestors(supers: map<UnitId, set<UnitId>>, u: UnitId, rank: UnitId -> nat): set<UnitId>
    requires Ranked(supers, rank)
    decreases rank(u)
  {
    Get(supers, u) + set s, a | s in Get(supers, u) && a in Ancestors(supers, s, rank) :: a
  }

  lemma AncestorsUnfold(supers: map<UnitId, set<UnitId>>, u: UnitId, rank: UnitId -> nat)
    requires Ranked(supers, rank)
    ensures forall a :: a in Ancestors(supers, u, rank) <==>
              a in Get(supers, u) || exists s :: s in Get(supers, u) && a in Ancestors(supers, s, rank)
  {
  }

  /** Every ancestor ranks below the unit: no unit is its own ancestor. */
  lemma {:induction false} AncestorsRankLower(supers: map<UnitId, set<UnitId>>, u: UnitId, rank: UnitId -> nat)
    requires Ranked(supers, rank)
    ensures forall a :: a in Ancestors(supers, u, rank) ==> rank(a) < rank(u)
    ensures u !in Ancestors(supers, u, rank)
    decreases rank(u)
  {
    forall s | s in Get(supers, u)
      ensures forall a :: a in Ancestors(supers, s, rank) ==> rank(a) < rank(u)
    {
      AncestorsRankLower(supers, s, rank);
    }
  }

  lemma AncestorsOfSuper(supers: map<UnitId, set<UnitId>>, u: UnitId, s: UnitId, rank: UnitId -> nat)
    requires Ranked(supers, rank) && s in Get(supers, u)
    ensures {s} + Ancestors(supers, s, rank) <= Ancestors(supers, u, rank)
  {
  }

  /** The units of `units` together with all their transitive super units. */
  ghost function Reach(supers: map<UnitId, set<UnitId>>, units: set<UnitId>, rank: UnitId -> nat): set<UnitId>
    requires Ranked(supers, rank)
  {
    units + set s, a | s in units && a in Ancestors(supers, s, rank) :: a
  }

  lemma ReachAdd(supers: map<UnitId, set<UnitId>>, units: set<UnitId>, s: UnitId, rank: UnitId -> nat)
    requires Ranked(supers, rank)
    ensures Reach(supers, units + {s}, rank) == Reach(supers, units, rank) + ({s} + Ancestors(supers, s, rank))
  {
  }

  /** Reaching from the direct super units of `u` gives exactly its ancestors. */
  lemma ReachSupers(supers: map<UnitId, set<UnitId>>, u: UnitId, rank: UnitId -> nat)
    requires Ranked(supers, rank)
    ensures Reach(supers, Get(supers, u), rank) == Ancestors(supers, u, rank)
  {
    AncestorsUnfold(supers, u, rank);
  }

  /** Override bookkeeping is kept in both directions. */
  ghost predicate Consistent(overrides: map<Cfg, set<Cfg>>, overriddenBy: map<Cfg, set<Cfg>>) {
    forall o, c :: c in Get(overrides, o) <==> o in Get(overriddenBy, c)
  }

  /** Recording an override of `over` keeps the bookkeeping consistent
      when its overriders gain `over` exactly for what `over` now overrides. */
  lemma ConsistentAfterOverride(overrides0: map<Cfg, set<Cfg>>, overriddenBy0: map<Cfg, set<Cfg>>,
                                overrides1: map<Cfg, set<Cfg>>, overriddenBy1: map<Cfg, set<Cfg>>, over: Cfg)
    requires Consistent(overrides0, overriddenBy0)
    requires forall c :: c != over ==> Get(overrides1, c) == Get(overrides0, c)
    requires Get(overrides0, over) <= Get(overrides1, over)
    requires AddedTo(overriddenBy0, overriddenBy1, Get(overrides1, over), over)
    ensures Consistent(overrides1, overriddenBy1)
  {
    forall o, c
      ensures c in Get(overrides1, o) <==> o in Get(overriddenBy1, c)
    {
      if o != over {
        assert c in Get(overrides1, o) <==> c in Get(overrides0, o);
        assert o in Get(overriddenBy1, c) <==> o in Get(overriddenBy0, c);
      }
    }
  }

  /** The super member `sup` has at most one implementation among `impl`,
      and the override of `sup` by it is recorded in `overrides`. */
  ghost predicate RecordedIn(overrides: map<Cfg, set<Cfg>>, impl: set<Cfg>, sup: Cfg) {
    |impl| <= 1 && forall over :: over in impl ==> sup in Get(overrides, over)
  }

  /** Every unit of `computed` has its transitive super units in
      `computed` and is among their instances. */
  ghost predicate ClosedIn(supers: map<UnitId, set<UnitId>>, computed: set<UnitId>,
                           instances: map<UnitId, set<UnitId>>, rank: UnitId -> nat)
    requires Ranked(supers, rank)
  {
    forall x, a :: x in computed && a in Ancestors(supers, x, rank) ==> a in computed && x in Get(instances, a)
  }

  lemma ClosedUnderGrowth(supers: map<UnitId, set<UnitId>>, computed: set<UnitId>,
                          before: map<UnitId, set<UnitId>>, after: map<UnitId, set<UnitId>>, rank: UnitId -> nat)
    requires Ranked(supers, rank) && ClosedIn(supers, computed, before, rank) && Grows(before, after)
    ensures ClosedIn(supers, computed, after, rank)
  {
  }

  lemma ClosedAdd(supers: map<UnitId, set<UnitId>>, computed: set<UnitId>,
                  instances: map<UnitId, set<UnitId>>, u: UnitId, rank: UnitId -> nat)
    requires Ranked(supers, rank) && ClosedIn(supers, computed, instances, rank)
    requires Ancestors(supers, u, rank) <= computed
    requires forall a :: a in Ancestors(supers, u, rank) ==> u in Get(instances, a)
    ensures ClosedIn(supers, computed + {u}, instances, rank)
  {
  }

  class InterfaceHierarchy {
    var instanceCfgs: map<UnitId, map<string, Cfg>>
    var supers: map<UnitId, set<UnitId>>
    var instances: map<UnitId, set<UnitId>>
    var computed: set<UnitId>
    var overrides: map<Cfg, set<Cfg>>
    var overriddenBy: map<Cfg, set<Cfg>>

    constructor ()
      ensures instanceCfgs == map[] && supers == map[] && instances == map[] && computed == {}
      ensures overrides == map[] && overriddenBy == map[]
    {
      instanceCfgs := map[];
      supers := map[];
      instances := map[];
      computed := {};
      overrides := map[];
      overriddenBy := map[];
    }

    function InstanceCfgs(u: UnitId): map<string, Cfg>
      reads this`instanceCfgs
    {
      if u in instanceCfgs then instanceCfgs[u] else map[]
    }

    function Supers(u: UnitId): set<UnitId>
      reads this`supers
    {
      Get(supers, u)
    }

    function Instances(u: UnitId): set<UnitId>
      reads this`instances
    {
      Get(instances, u)
    }

    function Overrides(c: Cfg): set<Cfg>
      reads this`overrides
    {
      Get(overrides, c)
    }

    function OverriddenBy(c: Cfg): set<Cfg>
      reads this`overriddenBy
    {
      Get(overriddenBy, c)
    }

    /** A finalised unit has finalised transitive super units, and is one
        of their instances. */
    ghost predicate ComputedClosed(rank: UnitId -> nat)
      reads this`supers, this`computed, this`instances
      requires Ranked(supers, rank)
    {
      ClosedIn(supers, computed, instances, rank)
    }

    /** The own instance CFGs of `u` accepted by `filter`. */
    ghost function Own(u: UnitId, filter: Cfg -> bool): set<Cfg>
      reads this`instanceCfgs
    {
      set c | c in InstanceCfgs(u).Values && filter(c)
    }

    /** `c` is an instance CFG of one of `units`. */
    ghost predicate DeclaredIn(c: Cfg, units: set<UnitId>)
      reads this`instanceCfgs
    {
      exists x :: x in units && c in InstanceCfgs(x).Values
    }

    /** `canBeInstantiated`: interface units are never instantiated. */
    function CanBeInstantiated(u: UnitId): (r: bool)
      ensures !r
    {
      false
    }

    /** `addInstanceCFG`: registers `cfg` under its signature unless a CFG
        with that signature is already there; tells whether it did. */
    method AddInstanceCfg(u: UnitId, cfg: Cfg) returns (r: bool)
      modifies this`instanceCfgs
      ensures r <==> cfg.signature !in old(InstanceCfgs(u))
      ensures r ==> instanceCfgs == old(instanceCfgs)[u := old(InstanceCfgs(u))[cfg.signature := cfg]]
      ensures !r ==> instanceCfgs == old(instanceCfgs)
    {
      if cfg.signature in InstanceCfgs(u) {
        return false;
      }
      instanceCfgs := instanceCfgs[u := InstanceCfgs(u)[cfg.signature := cfg]];
      return true;
    }

    /** `addSuperUnit`: adds a direct super unit; tells whether it was new. */
    method AddSuperUnit(u: UnitId, s: UnitId) returns (r: bool)
      modifies this`supers
      ensures r <==> s !in old(Supers(u))
      ensures supers == old(supers)[u := old(Supers(u)) + {s}]
    {
      r := s !in Supers(u);
      supers := supers[u := Supers(u) + {s}];
    }

    lemma DeclaredInSubset(units: set<UnitId>, more: set<UnitId>)
      requires units <= more
      ensures forall c :: DeclaredIn(c, units) ==> DeclaredIn(c, more)
    {
    }

    /** The own instance CFGs of `u` accepted by `filter`, collected one by
        one as the first loop of `searchCodeMembers` does. */
    method OwnMembers(u: UnitId, filter: Cfg -> bool) returns (result: set<Cfg>)
      ensures result == Own(u, filter)
    {
      result := {};
      var own := InstanceCfgs(u).Values;
      while own != {}
        invariant own <= InstanceCfgs(u).Values
        invariant result == set c | c in InstanceCfgs(u).Values - own && filter(c)
        decreases own
      {
        var c :| c in own;
        if filter(c) {
          result := result + {c};
        }
        own := own - {c};
      }
    }

    /** `c` is among `members`, or hidden by one of them that overrides it. */
    ghost predicate Covered(c: Cfg, members: set<Cfg>)
      reads this`overriddenBy
    {
      c in members || exists o :: o in members && o in OverriddenBy(c)
    }

    /** Members covered by a set stay covered by any larger set. */
    lemma CoveredGrows(members: set<Cfg>, smaller: set<Cfg>, larger: set<Cfg>)
      requires smaller <= larger && forall c :: c in members ==> Covered(c, smaller)
      ensures forall c :: c in members ==> Covered(c, larger)
    {
      forall c | c in members
        ensures Covered(c, larger)
      {
        if c !in smaller {
          var o :| o in smaller && o in OverriddenBy(c);
          assert o in larger;
        }
      }
    }

    /** The inner loop of `searchCodeMembers`: adds each inherited member
        unless a member already collected overrides it. */
    method MergeInherited(result: set<Cfg>, inherited: set<Cfg>) returns (merged: set<Cfg>)
      ensures result <= merged <= result + inherited
      ensures forall c, o :: c in merged - result && o in result ==> o !in OverriddenBy(c)
      ensures forall sup :: sup in inherited ==> Covered(sup, merged)
    {
      merged := result;
      var pending := inherited;
      while pending != {}
        invariant pending <= inherited
        invariant result <= merged <= result + inherited
        invariant forall c, o :: c in merged - result && o in result ==> o !in OverriddenBy(c)
        invariant forall sup :: sup in inherited - pending ==> Covered(sup, merged)
        decreases pending
      {
        var sup :| sup in pending;
        ghost var before := merged;
        if !(exists c :: c in merged && c in OverriddenBy(sup)) {
          merged := merged + {sup};
        }
        CoveredGrows(inherited - pending, before, merged);
        pending := pending - {sup};
      }
    }

    /** `searchCodeMembers`: the own instance CFGs accepted by `filter` and,
        when traversing, the members found in the super units that are not
        overridden by a member already collected. */
    method SearchCodeMembers(u: UnitId, filter: Cfg -> bool, traverse: bool, ghost rank: UnitId -> nat)
      returns (result: set<Cfg>)
      requires Ranked(supers, rank)
      decreases rank(u)
      ensures Own(u, filter) <= result
      ensures !traverse ==> result == Own(u, filter)
      ensures forall c :: c in result ==> filter(c) && DeclaredIn(c, {u} + Ancestors(supers, u, rank))
      ensures forall c, o :: c in result - Own(u, filter) && o in Own(u, filter) ==> o !in OverriddenBy(c)
      ensures traverse ==> forall s, c :: s in Supers(u) && c in Own(s, filter) ==> Covered(c, result)
    {
      result := OwnMembers(u, filter);
      if !traverse {
        return;
      }
      var pending := Supers(u);
      while pending != {}
        invariant pending <= Supers(u)
        invariant Own(u, filter) <= result
        invariant forall c :: c in result ==> filter(c) && DeclaredIn(c, {u} + Ancestors(supers, u, rank))
        invariant forall c, o :: c in result - Own(u, filter) && o in Own(u, filter) ==> o !in OverriddenBy(c)
        invariant forall s, c :: s in Supers(u) - pending && c in Own(s, filter) ==> Covered(c, result)
        decreases pending
      {
        var s :| s in pending;
        var inherited := SearchCodeMembers(s, filter, true, rank);
        AncestorsOfSuper(supers, u, s, rank);
        DeclaredInSubset({s} + Ancestors(supers, s, rank), {u} + Ancestors(supers, u, rank));
        ghost var before := result;
        result := MergeInherited(result, inherited);
        CoveredGrows(set s', c | s' in Supers(u) - pending && c in Own(s', filter) :: c, before, result);
        pending := pending - {s};
      }
    }

    /** `getInstanceCFGs`. */
    method GetInstanceCfgs(u: UnitId, traverse: bool, ghost rank: UnitId -> nat) returns (result: set<Cfg>)
      requires Ranked(supers, rank)
      ensures InstanceCfgs(u).Values <= result
      ensures !traverse ==> result == InstanceCfgs(u).Values
      ensures forall c :: c in result ==> DeclaredIn(c, {u} + Ancestors(supers, u, rank))
      ensures traverse ==> forall s, c :: s in Supers(u) && c in InstanceCfgs(s).Values ==> Covered(c, result)
    {
      result := SearchCodeMembers(u, AnyCfg(), traverse, rank);
      assert Own(u, AnyCfg()) == InstanceCfgs(u).Values;
      assert forall s :: Own(s, AnyCfg()) == InstanceCfgs(s).Values;
    }

    /** `getMatchingInstanceCodeMembers`. */
    method GetMatchingInstanceCodeMembers(u: UnitId, signature: Cfg, matches: (Cfg, Cfg) -> bool, traverse: bool,
                                          ghost rank: UnitId -> nat)
      returns (result: set<Cfg>)
      requires Ranked(supers, rank)
      ensures Own(u, MatchesSignatureOf(matches, signature)) <= result
      ensures !traverse ==> result == set c | c in InstanceCfgs(u).Values && matches(c, signature)
      ensures forall c :: c in result ==> matches(c, signature) && DeclaredIn(c, {u} + Ancestors(supers, u, rank))
      ensures traverse ==> forall s, c :: s in Supers(u) && c in InstanceCfgs(s).Values && matches(c, signature) ==>
                Covered(c, result)
    {
      result := SearchCodeMembers(u, MatchesSignatureOf(matches, signature), traverse, rank);
    }

    /** `addInstance`: `inst` becomes an instance of `u` and of every
        transitive super unit; it fails when `inst` is itself a transitive
        super unit of `u`. */
    method AddInstance(u: UnitId, inst: UnitId, ghost rank: UnitId -> nat) returns (r: Result<(), Error>)
      requires Ranked(supers, rank)
      modifies this`instances
      decreases rank(u), 2
      ensures r.Ok? <==> inst !in Ancestors(supers, u, rank)
      ensures r.Err? ==> r.error.ValidationError?
      ensures r.Ok? ==> AddedTo(old(instances), instances, {u} + Ancestors(supers, u, rank), inst)
      ensures AddsAtMost(old(instances), instances, inst)
    {
      if inst in Supers(u) {
        return Err(ValidationError("Found loop in compilation units hierarchy: " + inst +
                                   " is both a super unit and an instance of " + u));
      }
      instances := instances[u := Instances(u) + {inst}];
      ghost var added := instances;
      r := AddInstanceToSupers(u, inst, rank);
      AddsAtMostCompose(old(instances), added, instances, inst);
      if r.Ok? {
        AddedToCompose(old(instances), added, instances, {u}, Ancestors(supers, u, rank), inst);
      }
    }

    /** The loop of `addInstance` over the direct super units. */
    method AddInstanceToSupers(u: UnitId, inst: UnitId, ghost rank: UnitId -> nat) returns (r: Result<(), Error>)
      requires Ranked(supers, rank) && inst !in Supers(u)
      modifies this`instances
      decreases rank(u), 1
      ensures r.Ok? <==> inst !in Ancestors(supers, u, rank)
      ensures r.Err? ==> r.error.ValidationError?
      ensures r.Ok? ==> AddedTo(old(instances), instances, Ancestors(supers, u, rank), inst)
      ensures AddsAtMost(old(instances), instances, inst)
    {
      var pending := Supers(u);
      ghost var hierarchy := supers;
      ghost var done: set<UnitId> := {};
      while pending != {}
        invariant supers == hierarchy
        invariant pending + done == Get(hierarchy, u)
        invariant inst !in Reach(hierarchy, done, rank)
        invariant AddedTo(old(instances), instances, Reach(hierarchy, done, rank), inst)
        invariant AddsAtMost(old(instances), instances, inst)
        decreases pending
      {
        var s :| s in pending;
        r := AddInstanceToSuper(u, s, inst, old(instances), Reach(hierarchy, done, rank), rank);
        if r.Err? {
          return;
        }
        ReachAdd(hierarchy, done, s, rank);
        pending := pending - {s};
        done := done + {s};
      }
      ReachSupers(hierarchy, u, rank);
      r := Ok(());
    }

    /** One iteration of the loop of `addInstance`: `inst` becomes an
        instance of the direct super unit `s` of `u` and of its ancestors. */
    method AddInstanceToSuper(u: UnitId, s: UnitId, inst: UnitId, ghost base: map<UnitId, set<UnitId>>,
                              ghost reached: set<UnitId>, ghost rank: UnitId -> nat)
      returns (r: Result<(), Error>)
      requires Ranked(supers, rank) && s in Supers(u) && inst !in Supers(u)
      requires AddedTo(base, instances, reached, inst) && AddsAtMost(base, instances, inst)
      modifies this`instances
      decreases rank(u), 0
      ensures {s} + Ancestors(supers, s, rank) <= Ancestors(supers, u, rank)
      ensures r.Ok? <==> inst !in {s} + Ancestors(supers, s, rank)
      ensures r.Err? ==> r.error.ValidationError?
      ensures r.Ok? ==> AddedTo(base, instances, reached + ({s} + Ancestors(supers, s, rank)), inst)
      ensures AddsAtMost(base, instances, inst)
    {
      AncestorsOfSuper(supers, u, s, rank);
      ghost var before := instances;
      r := AddInstance(s, inst, rank);
      AddsAtMostCompose(base, before, instances, inst);
      if r.Ok? {
        AddedToCompose(base, before, instances, reached, {s} + Ancestors(supers, s, rank), inst);
      }
    }

    /** Records `over` among the overriders of every member of `overridden`. */
    method AddOverrider(overridden: set<Cfg>, over: Cfg)
      modifies this`overriddenBy
      ensures AddedTo(old(overriddenBy), overriddenBy, overridden, over)
    {
      var pending := overridden;
      while pending != {}
        invariant pending <= overridden
        invariant AddedTo(old(overriddenBy), overriddenBy, overridden - pending, over)
        decreases pending
      {
        var c :| c in pending;
        overriddenBy := overriddenBy[c := OverriddenBy(c) + {over}];
        pending := pending - {c};
      }
    }

    /** Records that `over` implements `sup`: `over` overrides `sup` and
        everything `sup` overrides, and everything `over` overrides lists
        `over` among its overriders. */
    method RecordOverride(over: Cfg, sup: Cfg)
      modifies this`overrides, this`overriddenBy
      ensures Overrides(over) == old(Overrides(over)) + old(Overrides(sup)) + {sup}
      ensures forall c :: c != over ==> Overrides(c) == old(Overrides(c))
      ensures AddedTo(old(overriddenBy), overriddenBy, Overrides(over), over)
      ensures Grows(old(overrides), overrides)
      ensures old(Consistent(overrides, overriddenBy)) ==> Consistent(overrides, overriddenBy)
    {
      overrides := overrides[over := Overrides(over) + Overrides(sup) + {sup}];
      AddOverrider(Overrides(over), over);
      if old(Consistent(overrides, overriddenBy)) {
        ConsistentAfterOverride(old(overrides), old(overriddenBy), overrides, overriddenBy, over);
      }
    }

    /** The own members of `u` implementing the super member `sup`. */
    ghost function Implementations(u: UnitId, sup: Cfg, matches: (Cfg, Cfg) -> bool): set<Cfg>
      reads this`instanceCfgs
    {
      Own(u, MatchesSignatureOf(matches, sup))
    }

    /** One step of `validateAndFinalize`: a super member implemented more
        than once in `u` is an error; implemented exactly once, the
        override is recorded; not implemented, nothing changes. */
    method OverrideFromSuper(u: UnitId, sup: Cfg, matches: (Cfg, Cfg) -> bool, ghost rank: UnitId -> nat)
      returns (r: Result<(), Error>)
      requires Ranked(supers, rank)
      modifies this`overrides, this`overriddenBy
      ensures r.Err? <==> |Implementations(u, sup, matches)| > 1
      ensures r.Err? ==> r.error == ValidationError(sup.signature + " is implemented multiple times in unit " + u)
      ensures |Implementations(u, sup, matches)| != 1 ==> overrides == old(overrides) && overriddenBy == old(overriddenBy)
      ensures |Implementations(u, sup, matches)| == 1 ==>
                forall over :: over in Implementations(u, sup, matches) ==>
                  && Overrides(over) == old(Overrides(over)) + old(Overrides(sup)) + {sup}
                  && (forall c :: c != over ==> Overrides(c) == old(Overrides(c)))
                  && AddedTo(old(overriddenBy), overriddenBy, Overrides(over), over)
      ensures Grows(old(overrides), overrides) && Grows(old(overriddenBy), overriddenBy)
      ensures old(Consistent(overrides, overriddenBy)) ==> Consistent(overrides, overriddenBy)
    {
      var implementing := GetMatchingInstanceCodeMembers(u, sup, matches, false, rank);
      assert implementing == Implementations(u, sup, matches);
      if |implementing| > 1 {
        return Err(ValidationError(sup.signature + " is implemented multiple times in unit " + u));
      }
      if |implementing| == 1 {
        var over :| over in implementing;
        assert |implementing - {over}| == 0;
        assert implementing == {over};
        RecordOverride(over, sup);
      }
      r := Ok(());
    }

    /** `isInstanceOf`: reflexive; once the hierarchy of `u` is computed it
        is membership in the instances of `t`, before that a search through
        the super units. */
    function IsInstanceOf(u: UnitId, t: UnitId, rank: UnitId -> nat): (r: bool)
      reads this`supers, this`computed, this`instances
      requires Ranked(supers, rank)
      decreases rank(u)
      ensures u == t ==> r
      ensures u != t && u in computed ==> (r <==> u in Instances(t))
    {
      u == t || (if u in computed then u in Instances(t) else exists s :: s in Supers(u) && IsInstanceOf(s, t, rank))
    }

    /** Before finalisation, `isInstanceOf` is exactly the reflexive and
        transitive closure of the super-unit relation. */
    lemma {:induction false} IsInstanceOfBeforeFinalisation(u: UnitId, t: UnitId, rank: UnitId -> nat)
      requires Ranked(supers, rank)
      requires u !in computed && forall a :: a in Ancestors(supers, u, rank) ==> a !in computed
      ensures IsInstanceOf(u, t, rank) <==> u == t || t in Ancestors(supers, u, rank)
      decreases rank(u)
    {
      AncestorsUnfold(supers, u, rank);
      forall s | s in Supers(u)
        ensures IsInstanceOf(s, t, rank) <==> s == t || t in Ancestors(supers, s, rank)
      {
        AncestorsOfSuper(supers, u, s, rank);
        IsInstanceOfBeforeFinalisation(s, t, rank);
      }
    }

    /** `validateAndFinalize`: once per unit, validates the unit, its super
        units, registers the unit as an instance of itself and of all its
        transitive super units, and records the overrides of the members it
        inherits. `unitValidation` is the validation of the base unit class,
        which is not part of this model. */
    method ValidateAndFinalize(u: UnitId, matches: (Cfg, Cfg) -> bool, unitValidation: UnitId -> Result<(), Error>,
                               ghost rank: UnitId -> nat)
      returns (r: Result<(), Error>)
      requires Ranked(supers, rank) && ComputedClosed(rank)
      modifies this`instances, this`computed, this`overrides, this`overriddenBy
      decreases rank(u), 1
      ensures ComputedClosed(rank)
      ensures old(u in computed) ==> r == Ok(()) && unchanged(this)
      ensures old(u !in computed) && unitValidation(u).Err? ==> r == unitValidation(u)
      ensures old(computed) <= computed <= old(computed) + {u} + Ancestors(supers, u, rank)
      ensures Grows(old(instances), instances)
      ensures Grows(old(overrides), overrides) && Grows(old(overriddenBy), overriddenBy)
      ensures old(Consistent(overrides, overriddenBy)) ==> Consistent(overrides, overriddenBy)
      ensures r.Err? ==> u !in computed
      ensures r.Ok? ==> u in computed && Ancestors(supers, u, rank) <= computed
      ensures r.Ok? ==> forall a :: a in Ancestors(supers, u, rank) ==> u in Instances(a) && IsInstanceOf(u, a, rank)
      ensures old(u !in computed) && r.Ok? ==>
                forall s, sup :: s in Supers(u) && sup in InstanceCfgs(s).Values ==>
                  RecordedIn(overrides, Implementations(u, sup, matches), sup)
      ensures old(u !in computed) &&
              (exists s, sup :: s in Supers(u) && sup in InstanceCfgs(s).Values && |Implementations(u, sup, matches)| > 1) ==>
                r.Err?
    {
      if u in computed {
        return Ok(());
      }
      r := unitValidation(u);
      if r.Err? {
        return;
      }
      // the unit is not among its own transitive super units
      assert u !in Ancestors(supers, u, rank) by {
        AncestorsRankLower(supers, u, rank);
      }
      r := ValidateSupers(u, matches, unitValidation, rank);
      if r.Err? {
        return;
      }
      ghost var validated, ov, ob := instances, overrides, overriddenBy;
      r := Finalize(u, matches, rank);
      GrowsTransitive(old(instances), validated, instances);
      GrowsTransitive(old(overrides), ov, overrides);
      GrowsTransitive(old(overriddenBy), ob, overriddenBy);
    }

    /** The tail of `validateAndFinalize`, once the super units are
        finalised: registers the instance, records the inherited overrides
        and marks the unit as finalised. */
    method Finalize(u: UnitId, matches: (Cfg, Cfg) -> bool, ghost rank: UnitId -> nat)
      returns (r: Result<(), Error>)
      requires Ranked(supers, rank) && ComputedClosed(rank)
      requires u !in computed && u !in Ancestors(supers, u, rank) && Ancestors(supers, u, rank) <= computed
      modifies this`instances, this`computed, this`overrides, this`overriddenBy
      ensures ComputedClosed(rank)
      ensures Grows(old(instances), instances)
      ensures Grows(old(overrides), overrides) && Grows(old(overriddenBy), overriddenBy)
      ensures old(Consistent(overrides, overriddenBy)) ==> Consistent(overrides, overriddenBy)
      ensures r.Err? ==> computed == old(computed)
      ensures r.Err? ==>
                exists sup :: |Implementations(u, sup, matches)| > 1 &&
                  r.error == ValidationError(sup.signature + " is implemented multiple times in unit " + u)
      ensures r.Ok? ==> computed == old(computed) + {u}
      ensures r.Ok? ==> forall a :: a in Ancestors(supers, u, rank) ==> u in Instances(a) && IsInstanceOf(u, a, rank)
      ensures r.Ok? ==>
                forall s, sup :: s in Supers(u) && sup in InstanceCfgs(s).Values ==>
                  RecordedIn(overrides, Implementations(u, sup, matches), sup)
    {
      Register(u, rank);
      r := RecordInheritedOverrides(u, matches, rank);
      if r.Err? {
        return;
      }
      MarkFinalized(u, rank);
    }

    /** The last step of `validateAndFinalize`: the unit is marked as
        finalised, after which `isInstanceOf` answers from its instances. */
    method MarkFinalized(u: UnitId, ghost rank: UnitId -> nat)
      requires Ranked(supers, rank) && ComputedClosed(rank) && Ancestors(supers, u, rank) <= computed
      requires forall a :: a in Ancestors(supers, u, rank) ==> u in Instances(a)
      modifies this`computed
      ensures computed == old(computed) + {u}
      ensures ComputedClosed(rank)
      ensures forall a :: a in Ancestors(supers, u, rank) ==> IsInstanceOf(u, a, rank)
    {
      ClosedAdd(supers, computed, instances, u, rank);
      computed := computed + {u};
    }

    /** The unit becomes an instance of itself and of its transitive super
        units; this cannot fail, the unit not being among them. */
    method Register(u: UnitId, ghost rank: UnitId -> nat)
      requires Ranked(supers, rank) && ComputedClosed(rank) && u !in Ancestors(supers, u, rank)
      modifies this`instances
      ensures ComputedClosed(rank)
      ensures Grows(old(instances), instances)
      ensures AddedTo(old(instances), instances, {u} + Ancestors(supers, u, rank), u)
      ensures forall a :: a in Ancestors(supers, u, rank) ==> u in Instances(a)
    {
      var r := AddInstance(u, u, rank);
      assert r.Ok?;
      ClosedUnderGrowth(supers, computed, old(instances), instances, rank);
    }

    /** The first loop of `validateAndFinalize`: finalises every super unit. */
    method ValidateSupers(u: UnitId, matches: (Cfg, Cfg) -> bool, unitValidation: UnitId -> Result<(), Error>,
                          ghost rank: UnitId -> nat)
      returns (r: Result<(), Error>)
      requires Ranked(supers, rank) && ComputedClosed(rank)
      modifies this`instances, this`computed, this`overrides, this`overriddenBy
      decreases rank(u), 0
      ensures ComputedClosed(rank)
      ensures old(computed) <= computed <= old(computed) + Ancestors(supers, u, rank)
      ensures Grows(old(instances), instances)
      ensures Grows(old(overrides), overrides) && Grows(old(overriddenBy), overriddenBy)
      ensures old(Consistent(overrides, overriddenBy)) ==> Consistent(overrides, overriddenBy)
      ensures r.Ok? ==> Ancestors(supers, u, rank) <= computed
    {
      AncestorsUnfold(supers, u, rank);
      var pending := Supers(u);
      while pending != {}
        invariant pending <= Supers(u)
        invariant old(computed) <= computed <= old(computed) + Ancestors(supers, u, rank)
        invariant forall s :: s in Supers(u) - pending ==> s in computed && Ancestors(supers, s, rank) <= computed
        invariant ComputedClosed(rank)
        invariant Grows(old(instances), instances)
        invariant Grows(old(overrides), overrides) && Grows(old(overriddenBy), overriddenBy)
        invariant old(Consistent(overrides, overriddenBy)) ==> Consistent(overrides, overriddenBy)
        decreases pending
      {
        var s :| s in pending;
        AncestorsOfSuper(supers, u, s, rank);
        ghost var inst, ov, ob := instances, overrides, overriddenBy;
        r := ValidateAndFinalize(s, matches, unitValidation, rank);
        GrowsTransitive(old(instances), inst, instances);
        GrowsTransitive(old(overrides), ov, overrides);
        GrowsTransitive(old(overriddenBy), ob, overriddenBy);
        if r.Err? {
          return;
        }
        pending := pending - {s};
      }
      r := Ok(());
    }

    /** Recorded overrides stay recorded as the bookkeeping grows. */
    lemma RecordedGrows(u: UnitId, matches: (Cfg, Cfg) -> bool, sups: set<Cfg>,
                        overrides0: map<Cfg, set<Cfg>>, overrides1: map<Cfg, set<Cfg>>)
      requires Grows(overrides0, overrides1)
      requires forall sup :: sup in sups ==> RecordedIn(overrides0, Implementations(u, sup, matches), sup)
      ensures forall sup :: sup in sups ==> RecordedIn(overrides1, Implementations(u, sup, matches), sup)
    {
      forall sup, over | sup in sups && over in Implementations(u, sup, matches)
        ensures sup in Get(overrides1, over)
      {
        assert sup in Get(overrides0, over);
      }
    }

    /** The second loop of `validateAndFinalize`: every member inherited
        from a direct super unit is matched against the unit's own members.
        On success, every own member of a direct super unit is implemented
        at most once in `u`, and that implementation overrides it; a
        failure names a member implemented more than once. */
    method RecordInheritedOverrides(u: UnitId, matches: (Cfg, Cfg) -> bool, ghost rank: UnitId -> nat)
      returns (r: Result<(), Error>)
      requires Ranked(supers, rank)
      modifies this`overrides, this`overriddenBy
      ensures Grows(old(overrides), overrides) && Grows(old(overriddenBy), overriddenBy)
      ensures old(Consistent(overrides, overriddenBy)) ==> Consistent(overrides, overriddenBy)
      ensures r.Err? ==>
                exists sup :: |Implementations(u, sup, matches)| > 1 &&
                  r.error == ValidationError(sup.signature + " is implemented multiple times in unit " + u)
      ensures r.Ok? ==> forall s, sup :: s in Supers(u) && sup in InstanceCfgs(s).Values ==>
                RecordedIn(overrides, Implementations(u, sup, matches), sup)
    {
      var pending := Supers(u);
      while pending != {}
        invariant pending <= Supers(u)
        invariant Grows(old(overrides), overrides) && Grows(old(overriddenBy), overriddenBy)
        invariant old(Consistent(overrides, overriddenBy)) ==> Consistent(overrides, overriddenBy)
        invariant forall s, sup :: s in Supers(u) - pending && sup in InstanceCfgs(s).Values ==>
                    RecordedIn(overrides, Implementations(u, sup, matches), sup)
        decreases pending
      {
        var s :| s in pending;
        ghost var ov, ob := overrides, overriddenBy;
        r := RecordOverridesFrom(u, s, matches, rank);
        GrowsTransitive(old(overrides), ov, overrides);
        GrowsTransitive(old(overriddenBy), ob, overriddenBy);
        if r.Err? {
          return;
        }
        RecordedGrowsIn(u, matches, Supers(u) - pending, ov, overrides);
        pending := pending - {s};
      }
      r := Ok(());
    }

    /** Recorded overrides of the own members of `units` stay recorded as
        the bookkeeping grows. */
    lemma RecordedGrowsIn(u: UnitId, matches: (Cfg, Cfg) -> bool, units: set<UnitId>,
                          overrides0: map<Cfg, set<Cfg>>, overrides1: map<Cfg, set<Cfg>>)
      requires Grows(overrides0, overrides1)
      requires forall s, sup :: s in units && sup in InstanceCfgs(s).Values ==>
                 RecordedIn(overrides0, Implementations(u, sup, matches), sup)
      ensures forall s, sup :: s in units && sup in InstanceCfgs(s).Values ==>
                RecordedIn(overrides1, Implementations(u, sup, matches), sup)
    {
      forall s | s in units
        ensures forall sup :: sup in InstanceCfgs(s).Values ==> RecordedIn(overrides1, Implementations(u, sup, matches), sup)
      {
        RecordedGrows(u, matches, InstanceCfgs(s).Values, overrides0, overrides1);
      }
    }

    /** One iteration of the second loop of `validateAndFinalize`: the
        members inherited from the super unit `s`. */
    method RecordOverridesFrom(u: UnitId, s: UnitId, matches: (Cfg, Cfg) -> bool, ghost rank: UnitId -> nat)
      returns (r: Result<(), Error>)
      requires Ranked(supers, rank)
      modifies this`overrides, this`overriddenBy
      ensures Grows(old(overrides), overrides) && Grows(old(overriddenBy), overriddenBy)
      ensures old(Consistent(overrides, overriddenBy)) ==> Consistent(overrides, overriddenBy)
      ensures r.Err? ==>
                exists sup :: |Implementations(u, sup, matches)| > 1 &&
                  r.error == ValidationError(sup.signature + " is implemented multiple times in unit " + u)
      ensures r.Ok? ==> forall sup :: sup in InstanceCfgs(s).Values ==> RecordedIn(overrides, Implementations(u, sup, matches), sup)
    {
      var inherited := GetInstanceCfgs(s, true, rank);
      r := RecordOverridesOf(u, inherited, matches, rank);
    }

    /** The inner loop of the second loop of `validateAndFinalize`, over the
        members inherited from one super unit. */
    method RecordOverridesOf(u: UnitId, inherited: set<Cfg>, matches: (Cfg, Cfg) -> bool, ghost rank: UnitId -> nat)
      returns (r: Result<(), Error>)
      requires Ranked(supers, rank)
      modifies this`overrides, this`overriddenBy
      ensures Grows(old(overrides), overrides) && Grows(old(overriddenBy), overriddenBy)
      ensures old(Consistent(overrides, overriddenBy)) ==> Consistent(overrides, overriddenBy)
      ensures r.Err? ==>
                exists sup :: sup in inherited && |Implementations(u, sup, matches)| > 1 &&
                  r.error == ValidationError(sup.signature + " is implemented multiple times in unit " + u)
      ensures r.Ok? ==> forall sup :: sup in inherited ==> RecordedIn(overrides, Implementations(u, sup, matches), sup)
    {
      var pending := inherited;
      while pending != {}
        invariant pending <= inherited
        invariant Grows(old(overrides), overrides) && Grows(old(overriddenBy), overriddenBy)
        invariant old(Consistent(overrides, overriddenBy)) ==> Consistent(overrides, overriddenBy)
        invariant forall sup :: sup in inherited - pending ==> RecordedIn(overrides, Implementations(u, sup, matches), sup)
        decreases pending
      {
        var sup :| sup in pending;
        ghost var ov, ob := overrides, overriddenBy;
        r := OverrideFromSuper(u, sup, matches, rank);
        GrowsTransitive(old(overrides), ov, overrides);
        GrowsTransitive(old(overriddenBy), ob, overriddenBy);
        if r.Err? {
          return;
        }
        RecordedGrows(u, matches, inherited - pending, ov, overrides);
        pending := pending - {sup};
      }
      r := Ok(());
    }
  }
}

=== FILE: modular_worst_case.dfy ===
/** The worst-case modular interprocedural analysis: every CFG is analysed
    once from the same entry state, with its formal parameters bound to
    unknown values of any instance of their static types, and every call
    between CFGs is treated as an open call. */
module ModularWorstCase {
  import opened Wrappers
  import opened Types
  import opened Symbolic
  import opened Analysis
  import opened Parameters
  import opened Cfgs
  import opened Calls
  import opened Folds

  /** The CFGs of a program, in the order the program yields them. */
  datatype Program = Program(cfgs: seq<Cfg>)

  /** The policy giving the result of an open call, from the call (its fixed
      data and its runtime types), the entry state and the abstract values of
      the actual parameters. */
  datatype OpenCallPolicy<!S> =
    OpenCallPolicy(apply: (CallView, set<Type>, S, seq<set<SymbolicExpression>>) -> Result<S, Error>)

  /** What the analysis is run with and is not part of this model: the
      abstract domain, the instances of each type (in the type cache's
      order), and the fixpoint of a single CFG from a prepared entry state,
      a working set and a widening threshold. */
  datatype Engine<!S, !W, R> = Engine(dom: Domain<S>, allInstances: Type -> seq<Type>,
                                    cfgFixpoint: (Cfg, S, W, int) -> Result<R, Error>)

  /** The variable standing for a formal parameter: typed with every
      instance of the parameter's static type. */
  function ArgVariable(allInstances: Type -> seq<Type>, arg: Parameter): (v: SymbolicExpression)
    ensures v.Variable? && v.IsIdentifier()
    ensures v.name == arg.name && v.location == arg.location && v.types == allInstances(arg.staticType)
  {
    Variable(allInstances(arg.staticType), arg.name, arg.location)
  }

  /** Binding one formal parameter to an unknown value of the same types. */
  function PrepareStep<S>(dom: Domain<S>, allInstances: Type -> seq<Type>): (S, Parameter) -> Result<S, Error> {
    (st: S, arg: Parameter) =>
      dom.assign(st, ArgVariable(allInstances, arg), PushAny(allInstances(arg.staticType), arg.location))
  }

  lemma PrepareStepValue<S>(dom: Domain<S>, allInstances: Type -> seq<Type>, st: S, arg: Parameter)
    ensures PrepareStep(dom, allInstances)(st, arg)
         == dom.assign(st, ArgVariable(allInstances, arg), PushAny(allInstances(arg.staticType), arg.location))
  {
  }

  /** The entry state of a CFG: `entry` with its formal parameters bound in
      declaration order; the first failing assignment is the result. */
  function EntryState<S>(dom: Domain<S>, allInstances: Type -> seq<Type>, entry: S, args: seq<Parameter>): Result<S, Error> {
    Fold(PrepareStep(dom, allInstances), args, entry)
  }

  /** Parameters are bound in declaration order: the last one is assigned
      last, on the state the others produced. */
  lemma EntryStateBindsLastArgumentLast<S>(dom: Domain<S>, allInstances: Type -> seq<Type>, entry: S,
                                           args: seq<Parameter>, arg: Parameter)
    ensures EntryState(dom, allInstances, entry, args).Err? ==>
              EntryState(dom, allInstances, entry, args + [arg]) == EntryState(dom, allInstances, entry, args)
    ensures EntryState(dom, allInstances, entry, args).Ok? ==>
              EntryState(dom, allInstances, entry, args + [arg])
              == dom.assign(EntryState(dom, allInstances, entry, args).value, ArgVariable(allInstances, arg),
                            PushAny(allInstances(arg.staticType), arg.location))
  {
    FoldAppend(PrepareStep(dom, allInstances), args, [arg], entry);
    if EntryState(dom, allInstances, entry, args).Ok? {
      var s := EntryState(dom, allInstances, entry, args).value;
      FoldCons(PrepareStep(dom, allInstances), arg, [], s);
      PrepareStepValue(dom, allInstances, s, arg);
    }
  }

  /** The inner loop of `fixpoint`: binds every formal parameter in turn. */
  method PrepareEntryState<S>(dom: Domain<S>, allInstances: Type -> seq<Type>, entry: S, args: seq<Parameter>)
    returns (r: Result<S, Error>)
    ensures r == EntryState(dom, allInstances, entry, args)
  {
    var prepared := entry;
    var k := 0;
    while k < |args|
      invariant 0 <= k <= |args|
      invariant Fold(PrepareStep(dom, allInstances), args[k..], prepared) == EntryState(dom, allInstances, entry, args)
    {
      assert args[k..] == [args[k]] + args[k + 1..];
      FoldCons(PrepareStep(dom, allInstances), args[k], args[k + 1..], prepared);
      PrepareStepValue(dom, allInstances, prepared, args[k]);
      var next := dom.assign(prepared, ArgVariable(allInstances, args[k]),
                             PushAny(allInstances(args[k].staticType), args[k].location));
      if next.Err? {
        return Err(next.error);
      }
      prepared := next.value;
      k := k + 1;
    }
    assert args[k..] == [];
    r := Ok(prepared);
  }

  /** The outcome of analysing one CFG: a failure while preparing its entry
      state or building the working set is reported as a fixpoint error
      naming the CFG; the CFG fixpoint's own failures pass through. */
  function Analyze<S, W, R>(engine: Engine<S, W, R>, entry: S, workingSet: Result<W, Error>, threshold: int, c: Cfg)
    : (r: Result<R, Error>)
    ensures EntryState(engine.dom, engine.allInstances, entry, c.args).Err? || workingSet.Err? ==>
              r == Err(FixpointError("Error while creating the entrystate for " + c.signature))
    ensures EntryState(engine.dom, engine.allInstances, entry, c.args).Ok? && workingSet.Ok? ==>
              r == engine.cfgFixpoint(c, EntryState(engine.dom, engine.allInstances, entry, c.args).value,
                                      workingSet.value, threshold)
  {
    match EntryState(engine.dom, engine.allInstances, entry, c.args)
    case Err(_) => Err(FixpointError("Error while creating the entrystate for " + c.signature))
    case Ok(prepared) =>
      if workingSet.Err? then Err(FixpointError("Error while creating the entrystate for " + c.signature))
      else engine.cfgFixpoint(c, prepared, workingSet.value, threshold)
  }

  /** The body of the loop of `fixpoint` for one CFG. */
  method AnalyzeCfg<S, W, R>(engine: Engine<S, W, R>, entry: S, workingSet: Result<W, Error>, threshold: int, c: Cfg)
    returns (r: Result<R, Error>)
    ensures r == Analyze(engine, entry, workingSet, threshold, c)
  {
    var prepared := PrepareEntryState(engine.dom, engine.allInstances, entry, c.args);
    if prepared.Err? || workingSet.Err? {
      return Err(FixpointError("Error while creating the entrystate for " + c.signature));
    }
    r := engine.cfgFixpoint(c, prepared.value, workingSet.value, threshold);
  }

  class ModularWorstCaseAnalysis<S, R> {
    var program: Option<Program>
    var policy: Option<OpenCallPolicy<S>>
    /** The computed results; a CFG that is a key has been analysed. */
    var results: map<Cfg, Option<R>>

    constructor ()
      ensures program == None && policy == None && results == map[]
    {
      program := None;
      policy := None;
      results := map[];
    }

    /** `init`: remembers the program and the policy; the call graph is not
        used by this analysis. */
    method Init<G>(program: Option<Program>, callGraph: G, policy: Option<OpenCallPolicy<S>>)
      modifies this
      ensures this.program == program && this.policy == policy && results == old(results)
    {
      this.program := program;
      this.policy := policy;
    }

    /** `fixpoint`: analyses every CFG of the program in order, recording
        each result, and stops at the first failure. */
    method Fixpoint<W>(engine: Engine<S, W, R>, entry: S, workingSet: Result<W, Error>, threshold: int)
      returns (r: Result<(), Error>)
      modifies this
      ensures program == old(program) && policy == old(policy)
      ensures program.None? ==> r == Err(NullPointer) && results == old(results)
      ensures old(results).Keys <= results.Keys
      ensures forall c :: c in results && c !in old(results) ==> program.Some? && c in program.value.cfgs
      ensures forall c :: c in old(results) && (program.None? || c !in program.value.cfgs) ==> results[c] == old(results)[c]
      ensures program.Some? && r.Ok? ==>
                forall c :: c in program.value.cfgs ==>
                  Analyze(engine, entry, workingSet, threshold, c).Ok? && c in results &&
                  results[c] == Some(Analyze(engine, entry, workingSet, threshold, c).value)
      ensures program.Some? && r.Err? ==>
                var cfgs := program.value.cfgs;
                exists k :: 0 <= k < |cfgs| && Analyze(engine, entry, workingSet, threshold, cfgs[k]) == Err(r.error) &&
                  (forall j :: 0 <= j < k ==>
                     Analyze(engine, entry, workingSet, threshold, cfgs[j]).Ok? && cfgs[j] in results &&
                     results[cfgs[j]] == Some(Analyze(engine, entry, workingSet, threshold, cfgs[j]).value)) &&
                  (forall c :: c in results && c !in old(results) ==> c in cfgs[..k]) &&
                  (forall c :: c in old(results) && c !in cfgs[..k] ==> results[c] == old(results)[c])
    {
      if program.None? {
        return Err(NullPointer);
      }
      var cfgs := program.value.cfgs;
      var k := 0;
      while k < |cfgs|
        invariant 0 <= k <= |cfgs|
        invariant program == old(program) && policy == old(policy)
        invariant old(results).Keys <= results.Keys
        invariant forall c :: c in results && c !in old(results) ==> c in cfgs[..k]
        invariant forall c :: c in old(results) && c !in cfgs[..k] ==> results[c] == old(results)[c]
        invariant forall c :: c in cfgs[..k] ==>
                    Analyze(engine, entry, workingSet, threshold, c).Ok? && c in results &&
                    results[c] == Some(Analyze(engine, entry, workingSet, threshold, c).value)
      {
        var c := cfgs[k];
        var result := AnalyzeCfg(engine, entry, workingSet, threshold, c);
        if result.Err? {
          assert forall j :: 0 <= j < k ==> cfgs[j] in cfgs[..k];
          return Err(result.error);
        }
        assert cfgs[..k + 1] == cfgs[..k] + [c];
        results := results[c := Some(result.value)];
        k := k + 1;
      }
      assert cfgs[..k] == cfgs;
      r := Ok(());
    }

    /** `getAnalysisResultsOf`: the single recorded result of a CFG, absent
        when its fixpoint has not been computed; asking for a CFG that was
        never added fails. */
    function GetAnalysisResultsOf(c: Cfg): (r: Result<seq<Option<R>>, Error>)
      reads this
      ensures r.Ok? <==> c in results
      ensures r.Err? ==> r.error == NullPointer
      ensures r.Ok? ==> |r.value| == 1 && r.value[0] == results[c]
    {
      if c in results then Ok([results[c]]) else Err(NullPointer)
    }

    /** `getAbstractResultOf` for an open call: the policy's answer; without
        a policy the call fails. */
    function GetAbstractResultOfOpenCall(call: Call, entry: S, params: seq<set<SymbolicExpression>>)
      : (r: Result<S, Error>)
      reads this, call
      requires call.kind.Open?
      ensures policy.None? ==> r == Err(NullPointer)
      ensures policy.Some? ==> r == policy.value.apply(call.View(), call.runtimeTypes, entry, params)
    {
      if policy.None? then Err(NullPointer) else policy.value.apply(call.View(), call.runtimeTypes, entry, params)
    }

    /** `getAbstractResultOf` for a call to CFGs of the program: the call is
        treated as a new open call with the same CFG, location, target, static
        type and parameters, which has no runtime types yet. */
    method GetAbstractResultOfCfgCall(call: Call, entry: S, params: seq<set<SymbolicExpression>>)
      returns (r: Result<S, Error>)
      requires call.kind.CfgCall?
      ensures forall open: Call {:trigger open.View()} ::
                open.kind.Open? && open.View() == call.View() && open.runtimeTypes == {} ==>
                r == GetAbstractResultOfOpenCall(open, entry, params)
      ensures policy.Some? ==> r == policy.value.apply(call.View(), {}, entry, params)
    {
      var open := new Call(call.cfg, call.location, Open, call.targetName, call.staticType, call.parameters);
      r := GetAbstractResultOfOpenCall(open, entry, params);
    }

    /** `resolve`: every unresolved call becomes an open call with the same
        data and the same runtime types; resolution never fails. */
    method Resolve(unresolved: Call) returns (open: Call)
      requires unresolved.kind.Unresolved?
      ensures fresh(open) && open.kind == Open
      ensures open.View() == unresolved.View() && open.runtimeTypes == unresolved.runtimeTypes
    {
      open := new Call(unresolved.cfg, unresolved.location, Open, unresolved.targetName, unresolved.staticType,
                       unresolved.parameters);
      open.runtimeTypes := unresolved.runtimeTypes;
    }
  }
}

=== FILE: or.dfy ===
/** The logical disjunction statement `||`. */
module LogicOr {
  import opened Wrappers
  import opened Types
  import opened Symbolic
  import opened Analysis

  /** The statement's fixed parts: its operands, its symbol and its static type. */
  datatype OrStatement = OrStatement(location: CodeLocation, left: Expression, right: Expression,
                                     symbol: string, staticType: Type)

  /** The constructor: the symbol is `||` and the static type is the boolean type. */
  function NewOr(location: CodeLocation, left: Expression, right: Expression): (r: OrStatement)
    ensures r.symbol == "||" && r.staticType == Bool && r.staticType.IsBooleanType()
    ensures r.left == left && r.right == right && r.location == location
  {
    OrStatement(location, left, right, "||", Bool)
  }

  /** An operand may take part in a disjunction when its dynamic type is
      boolean, or untyped (as during type inference). */
  predicate AdmitsBoolean(t: Type) {
    t.IsBooleanType() || t.IsUntyped()
  }

  /** `binarySemantics`: bottom when either operand's dynamic type rules out a
      boolean; otherwise one `LogicalOr` small step typed as the boolean type.
      `dynamicType` is `SymbolicExpression.getDynamicType`. */
  function BinarySemantics<S>(dom: Domain<S>, state: S, location: CodeLocation, dynamicType: SymbolicExpression -> Type,
                              left: SymbolicExpression, right: SymbolicExpression): (r: Result<S, Error>)
    ensures !AdmitsBoolean(dynamicType(left)) ==> r == Ok(dom.bottom(state))
    ensures !AdmitsBoolean(dynamicType(right)) ==> r == Ok(dom.bottom(state))
    ensures AdmitsBoolean(dynamicType(left)) && AdmitsBoolean(dynamicType(right)) ==>
              r == dom.smallStep(state, BinaryExpression([Bool], left, right, LogicalOr, location))
  {
    if !dynamicType(left).IsBooleanType() && !dynamicType(left).IsUntyped() then Ok(dom.bottom(state))
    else if !dynamicType(right).IsBooleanType() && !dynamicType(right).IsUntyped() then Ok(dom.bottom(state))
    else dom.smallStep(state, BinaryExpression([Bool], left, right, LogicalOr, location))
  }

  /** The type gate does not depend on which operand is checked first: the
      result is bottom for swapped operands exactly when it is for these. */
  lemma GateIsSymmetric<S>(dom: Domain<S>, state: S, location: CodeLocation, dynamicType: SymbolicExpression -> Type,
                           left: SymbolicExpression, right: SymbolicExpression)
    requires !AdmitsBoolean(dynamicType(left)) || !AdmitsBoolean(dynamicType(right))
    ensures BinarySemantics(dom, state, location, dynamicType, left, right)
         == BinarySemantics(dom, state, location, dynamicType, right, left)
         == Ok(dom.bottom(state))
  {
  }
}

=== FILE: parameter.dfy ===
/** A formal parameter of a CFG: a name and a static type at a code location. */
module Parameters {
  import opened Wrappers
  import opened Types
  import opened Analysis

  datatype Parameter = Parameter(location: CodeLocation, name: string, staticType: Type)
  {
    function GetName(): (r: string)
      ensures r == name
    {
      name
    }

    function GetStaticType(): (r: Type)
      ensures r == staticType
    {
      staticType
    }

    /** `equals`: the inherited location comparison, then name and static type.
        Equal parameters hash equally under any hashes of their parts. */
    function Equals(other: Option<Parameter>): (r: bool)
      ensures r <==> other == Some(this)
      ensures r ==> forall lh: CodeLocation -> int, th: Type -> int ::
                      HashCode(this, lh, th) == HashCode(other.value, lh, th)
    {
      other.Some? && location == other.value.location && name == other.value.name &&
      staticType == other.value.staticType
    }

    /** `toString`: the static type, a space, then the name. */
    function ToString(): (r: string)
      ensures |r| == |staticType.ToString()| + 1 + |name|
      ensures r[..|staticType.ToString()|] == staticType.ToString() && r[|staticType.ToString()|] == ' '
      ensures r[|staticType.ToString()| + 1..] == name
    {
      staticType.ToString() + " " + name
    }
  }

  /** Java's `String.hashCode`, without the 32-bit wrap-around. */
  function StringHash(s: string): (r: int)
    ensures r >= 0
    ensures s != [] ==> r >= s[|s| - 1] as int
  {
    if s == [] then 0 else 31 * StringHash(s[..|s| - 1]) + (s[|s| - 1] as int)
  }

  function Pow31(n: nat): (r: nat)
    ensures r >= 1
  {
    if n == 0 then 1 else 31 * Pow31(n - 1)
  }

  /** The documented form of `String.hashCode`: the sum of each character
      weighted by 31 to the number of characters after it. */
  function WeightedSum(s: string): int {
    if s == [] then 0 else (s[0] as int) * Pow31(|s| - 1) + WeightedSum(s[1..])
  }

  /** Hashing a concatenation: the hash of the front, shifted by the length
      of the back, plus the hash of the back. */
  lemma {:induction false} StringHashAppend(a: string, b: string)
    ensures StringHash(a + b) == StringHash(a) * Pow31(|b|) + StringHash(b)
    decreases |b|
  {
    if b != [] {
      var front := b[..|b| - 1];
      assert (a + b)[..|a + b| - 1] == a + front;
      assert (a + b)[|a + b| - 1] == b[|b| - 1];
      StringHashAppend(a, front);
      ShiftByOne(StringHash(a), Pow31(|front|), StringHash(front), b[|b| - 1] as int);
    } else {
      assert a + b == a;
    }
  }

  /** One more character multiplies the front's weight by 31. */
  lemma ShiftByOne(front: int, weight: int, back: int, c: int)
    ensures 31 * (front * weight + back) + c == front * (31 * weight) + (31 * back + c)
  {
  }

  /** The iterative hash agrees with the documented weighted sum. */
  lemma {:induction false} StringHashIsWeightedSum(s: string)
    ensures StringHash(s) == WeightedSum(s)
    decreases |s|
  {
    if s != [] {
      assert s == [s[0]] + s[1..];
      StringHashAppend([s[0]], s[1..]);
      assert [s[0]][..0] == [];
      StringHashIsWeightedSum(s[1..]);
    }
  }

  /** `hashCode`, built from the location's hash (the superclass part), the
      name and the static type; the hashes of locations and types are not part
      of this model and are given. */
  function HashCode(p: Parameter, locationHash: CodeLocation -> int, typeHash: Type -> int): int {
    31 * (31 * locationHash(p.location) + StringHash(p.name)) + typeHash(p.staticType)
  }

  /** The five-argument constructor: a null name or a null static type is
      rejected with a `NullPointerException`; otherwise the getters give back
      exactly what was passed. */
  function New(sourceFile: Option<string>, line: int, col: int, name: Option<string>, staticType: Option<Type>)
    : (r: Result<Parameter, Error>)
    ensures r.Err? <==> name.None? || staticType.None?
    ensures r.Err? ==> r.error == NullPointer
    ensures r.Ok? ==> r.value.GetName() == name.value && r.value.GetStaticType() == staticType.value
                      && r.value.location == CodeLocation(sourceFile, line, col)
  {
    if name.None? || staticType.None? then Err(NullPointer)
    else Ok(Parameter(CodeLocation(sourceFile, line, col), name.value, staticType.value))
  }

  /** The name-and-type constructor, at an unknown location. */
  function NewTyped(name: Option<string>, staticType: Option<Type>): (r: Result<Parameter, Error>)
    ensures r.Err? <==> name.None? || staticType.None?
    ensures r.Ok? ==> r.value == Parameter(UnknownLocation, name.value, staticType.value)
  {
    New(None, -1, -1, name, staticType)
  }

  /** The name-only constructor: the static type is `Untyped`. */
  function NewUntyped(name: Option<string>): (r: Result<Parameter, Error>)
    ensures r.Err? <==> name.None?
    ensures r.Ok? ==> r.value.GetStaticType() == Untyped && r.value.GetName() == name.value
                      && r.value.location == UnknownLocation
  {
    New(None, -1, -1, name, Some(Untyped))
  }

  /** Splits a string at its first space: what comes before it and what comes
      after it (the whole string and nothing when it has no space). */
  function SplitAtFirstSpace(s: string): (string, string) {
    if s == [] then ("", "")
    else if s[0] == ' ' then ("", s[1..])
    else var (a, b) := SplitAtFirstSpace(s[1..]); ([s[0]] + a, b)
  }

  lemma {:induction false} SplitAfterSpaceFreePrefix(a: string, b: string)
    requires ' ' !in a
    ensures SplitAtFirstSpace(a + " " + b) == (a, b)
  {
    if a == [] {
      assert a + " " + b == [' '] + b;
    } else {
      assert (a + " " + b)[1..] == a[1..] + " " + b;
      SplitAfterSpaceFreePrefix(a[1..], b);
      assert [a[0]] + a[1..] == a;
    }
  }

  /** The printed form of a parameter can be read back: when the type's name
      holds no space, splitting at the first space gives the type's name and
      the parameter's name. */
  lemma {:induction false} ToStringRoundTrip(p: Parameter)
    requires ' ' !in p.staticType.ToString()
    ensures SplitAtFirstSpace(p.ToString()) == (p.staticType.ToString(), p.name)
  {
    SplitAfterSpaceFreePrefix(p.staticType.ToString(), p.name);
  }
}

=== FILE: serializable_node.dfy ===
/** The node descriptions of the serializable graphs produced for results. */
module SerializableGraph {
  import opened Wrappers
  import opened Analysis

  /** Java's `int`. */
  newtype Int32 = x: int | -0x8000_0000 <= x < 0x8000_0000

  /** `Integer.compare`. */
  function IntegerCompare(x: Int32, y: Int32): (r: int)
    ensures r == 0 <==> x == y
    ensures r < 0 <==> x < y
  {
    if x < y then -1 else if x == y then 0 else 1
  }

  /** A node id with a description, whose own comparison (`SerializableValue`
      is not part of this model) is given to `CompareTo`; a description may be
      null. */
  class SerializableNodeDescription<V(==)> {
    var nodeId: Int32
    var description: Option<V>

    /** The no-argument constructor: id 0 and a null description. */
    constructor Empty()
      ensures nodeId == 0 && description == None
    {
      nodeId := 0;
      description := None;
    }

    constructor (id: Int32, description: Option<V>)
      ensures nodeId == id && this.description == description
    {
      nodeId := id;
      this.description := description;
    }

    method SetNodeId(id: Int32)
      modifies this`nodeId
      ensures nodeId == id && description == old(description)
    {
      nodeId := id;
    }

    method SetDescription(d: Option<V>)
      modifies this`description
      ensures description == d && nodeId == old(nodeId)
    {
      description := d;
    }

    /** `hashCode`, from the description's hash (0 for null) and the id; the
        32-bit wrap-around is not modelled. */
    function HashCode(valueHash: V -> int): int
      reads this
    {
      31 * (31 + (if description.None? then 0 else valueHash(description.value))) + nodeId as int
    }

    /** `equals`: same id, and descriptions both null or equal. */
    function Equals(other: SerializableNodeDescription?<V>): (r: bool)
      reads this, other
      ensures r <==> other != null && other.nodeId == nodeId && other.description == description
    {
      if other == this then true
      else if other == null then false
      else if description.None? then other.description.None? && nodeId == other.nodeId
      else other.description.Some? && description.value == other.description.value && nodeId == other.nodeId
    }

    /** `compareTo`: by id first; equal ids fall back on the descriptions'
        comparison, which fails on a null description of this node, as does a
        null argument. */
    function CompareTo(o: SerializableNodeDescription?<V>, compareValue: (V, Option<V>) -> int): (r: Result<int, Error>)
      reads this, o
      ensures o == null ==> r == Err(NullPointer)
      ensures o != null && nodeId < o.nodeId ==> r == Ok(-1)
      ensures o != null && nodeId > o.nodeId ==> r == Ok(1)
      ensures o != null && nodeId == o.nodeId ==>
                r == if description.None? then Err(NullPointer) else Ok(compareValue(description.value, o.description))
    {
      if o == null then Err(NullPointer)
      else
        var cmp := IntegerCompare(nodeId, o.nodeId);
        if cmp != 0 then Ok(cmp)
        else if description.None? then Err(NullPointer)
        else Ok(compareValue(description.value, o.description))
    }
  }

  /** Equal descriptions hash equally: the hash reads only the id and the
      description. */
  lemma EqualNodesHashEqually<V>(a: SerializableNodeDescription<V>, b: SerializableNodeDescription<V>, valueHash: V -> int)
    requires a.Equals(b)
    ensures a.HashCode(valueHash) == b.HashCode(valueHash)
  {
  }

  /** Nodes with different ids are ordered oppositely from either side,
      whatever their descriptions. */
  lemma CompareToAntisymmetricOnIds<V>(a: SerializableNodeDescription<V>, b: SerializableNodeDescription<V>,
                                            compareValue: (V, Option<V>) -> int)
    requires a.nodeId != b.nodeId
    ensures a.CompareTo(b, compareValue).Ok? && b.CompareTo(a, compareValue).Ok?
    ensures a.CompareTo(b, compareValue).value == -b.CompareTo(a, compareValue).value != 0
  {
  }
}

=== FILE: star.dfy ===
/** Regular expressions of the string-automata domain, and the rules of the
    `Star` node: simplification, equality, hashing and printing. The rules of
    the other nodes are not part of this model and are given as parameters. */
module Regex {
  import opened Wrappers

  datatype RegularExpression =
    | Atom(s: string)
    | EmptySet
    | Or(first: RegularExpression, second: RegularExpression)
    | Comp(first: RegularExpression, second: RegularExpression)
    | Star(op: RegularExpression)
  {
    predicate IsEmptyAtom() { Atom? && s == "" }
  }

  /** The empty-string atom, `Atom.EPSILON`. */
  const Epsilon: RegularExpression := Atom("")

  predicate IsStarOfStar(re: RegularExpression) {
    re.Star? && re.op.Star?
  }

  /** `simplify`. A star simplifies its operand first; an operand that becomes
      the empty atom or the empty set gives epsilon, a star operand is returned
      as it is (no star of a star is built), and anything else is starred.
      `other` is the simplification of the non-star nodes. */
  function Simplify(re: RegularExpression, other: RegularExpression -> RegularExpression): (r: RegularExpression)
    ensures re.Star? ==> r == Epsilon || r.Star?
    decreases re
  {
    match re
    case Star(op) =>
      var inner := Simplify(op, other);
      if inner.IsEmptyAtom() then Epsilon
      else if inner.EmptySet? then Epsilon
      else if inner.Star? then inner
      else Star(inner)
    case _ => other(re)
  }

  /** The four outcomes of simplifying a star, by what its operand simplifies to. */
  lemma SimplifyStarCases(op: RegularExpression, other: RegularExpression -> RegularExpression)
    ensures Simplify(op, other).IsEmptyAtom() ==> Simplify(Star(op), other) == Epsilon
    ensures Simplify(op, other).EmptySet? ==> Simplify(Star(op), other) == Epsilon
    ensures Simplify(op, other).Star? ==> Simplify(Star(op), other) == Simplify(op, other)
    ensures !Simplify(op, other).IsEmptyAtom() && !Simplify(op, other).EmptySet? && !Simplify(op, other).Star?
            ==> Simplify(Star(op), other) == Star(Simplify(op, other))
  {
  }

  /** Starring twice simplifies to the same expression as starring once. */
  lemma StarOfStarSimplifiesAsStar(x: RegularExpression, other: RegularExpression -> RegularExpression)
    ensures Simplify(Star(Star(x)), other) == Simplify(Star(x), other)
  {
    var once := Simplify(Star(x), other);
    assert once == Epsilon || once.Star?;
  }

  /** When the other nodes never produce a star of a star, neither does
      simplification, however deeply stars are nested. */
  lemma {:induction false} SimplifyBuildsNoStarOfStar(re: RegularExpression, other: RegularExpression -> RegularExpression)
    requires forall x :: !IsStarOfStar(other(x))
    ensures !IsStarOfStar(Simplify(re, other))
  {
    match re
    case Star(op) => SimplifyBuildsNoStarOfStar(op, other);
    case _ =>
  }

  /** The expression under all the stars wrapped around `re`. */
  function Unstarred(re: RegularExpression): (r: RegularExpression)
    ensures !r.Star?
  {
    match re
    case Star(op) => Unstarred(op)
    case _ => re
  }

  /** The hash of a star is its operand's hash; `baseHash` hashes the other nodes. */
  function Hash(re: RegularExpression, baseHash: RegularExpression -> int): (r: int)
    ensures r == baseHash(Unstarred(re))
  {
    match re
    case Star(op) => Hash(op, baseHash)
    case _ => baseHash(re)
  }

  /** `Star.equals`: the other object is a star with an equal operand. Equal
      stars hash equally. */
  function StarEquals(self: RegularExpression, other: Option<RegularExpression>): (r: bool)
    requires self.Star?
    ensures r <==> other == Some(self)
    ensures r ==> forall h: RegularExpression -> int :: Hash(self, h) == Hash(other.value, h)
  {
    other.Some? && other.value.Star? && other.value.op == self.op
  }

  /** `toString` of a star: a bare `*` after an `Or` (which prints its own
      parentheses) or after an atom printed as one character, and the operand
      in parentheses otherwise. `show` prints the other nodes. */
  function ToString(re: RegularExpression, show: RegularExpression -> string): (r: string)
    ensures !re.Star? ==> r == show(re)
    ensures re.Star? ==> |r| > 0 && r[|r| - 1] == '*'
    ensures re.Star? && (re.op.Or? || (re.op.Atom? && |show(re.op)| == 1)) ==> r == ToString(re.op, show) + "*"
    ensures re.Star? && !re.op.Or? && !(re.op.Atom? && |show(re.op)| == 1) ==>
              |r| >= 3 && r[0] == '(' && r[1..|r| - 2] == ToString(re.op, show) && r[|r| - 2..] == ")*"
  {
    match re
    case Star(op) =>
      var inner := ToString(op, show);
      if op.Or? || (op.Atom? && |inner| == 1) then inner + "*" else "(" + inner + ")*"
    case _ => show(re)
  }
}

=== FILE: string_concat.dfy ===
/** The `strcat` operator's type inference: set logic on the types of its two
    arguments. */
module StringConcatTyping {
  import opened Types
  import opened Symbolic

  predicate HasStringType(ts: set<Type>) {
    exists t :: t in ts && t.IsStringType()
  }

  /** `StringConcat.typeInference(left, right)`: the result is the singleton
      common string type when both argument sets admit a string, and empty
      otherwise. */
  function TypeInference(left: set<Type>, right: set<Type>): (r: set<Type>)
    ensures (forall t :: t in left ==> !t.IsStringType()) ==> r == {}
    ensures (forall t :: t in right ==> !t.IsStringType()) ==> r == {}
    ensures HasStringType(left) && HasStringType(right) ==> r == {Str}
    ensures |r| <= 1 && r <= {Str}
  {
    if !HasStringType(left) || !HasStringType(right) then {} else {Str}
  }

  /** The inferred type set does not depend on the order of the arguments. */
  lemma TypeInferenceSymmetric(left: set<Type>, right: set<Type>)
    ensures TypeInference(left, right) == TypeInference(right, left)
  {
  }

  /** Widening the argument type sets can only widen the inferred set: a
      string type found on both sides stays found. */
  lemma {:induction false} TypeInferenceMonotone(left1: set<Type>, right1: set<Type>, left2: set<Type>, right2: set<Type>)
    requires left1 <= left2 && right1 <= right2
    ensures TypeInference(left1, right1) <= TypeInference(left2, right2)
  {
    if HasStringType(left1) && HasStringType(right1) {
      var l :| l in left1 && l.IsStringType();
      var r :| r in right1 && r.IsStringType();
      assert l in left2 && r in right2;
    }
  }
}

=== FILE: symbolic.dfy ===
/** Symbolic expressions: what the statements hand to the abstract domain. */
module Symbolic {
  import opened Types

  /** The binary operators that appear in the modelled statements. Each is a
      nullary constructor, so each has exactly one value (the Java singletons). */
  datatype BinaryOperator = StringConcat | NumericNonOverflowingAdd | LogicalOr {
    function ToString(): string {
      match this
      case StringConcat => "strcat"
      case NumericNonOverflowingAdd => "+"
      case LogicalOr => "||"
    }
  }

  /** A symbolic expression together with its runtime types, kept in the order in
      which LiSA's type sets are iterated. `Variable` is the only identifier kind. */
  datatype SymbolicExpression =
    | Variable(types: seq<Type>, name: string, location: CodeLocation)
    | PushAny(types: seq<Type>, location: CodeLocation)
    | Constant(types: seq<Type>, value: string, location: CodeLocation)
    | BinaryExpression(types: seq<Type>, left: SymbolicExpression, right: SymbolicExpression,
                       op: BinaryOperator, location: CodeLocation)
  {
    predicate IsIdentifier() { Variable? }
  }
}

=== FILE: types.dfy ===
/** The part of LiSA's type system and program model that the core relies on. */
module Types {
  import opened Wrappers

  /** A type of the analysed language. Every kind but `Untyped` carries the
      name it prints as; the type queries (`isStringType`, `isNumericType`, ...)
      of LiSA's `Type` interface are the discriminators of this datatype. */
  datatype Type =
    | Untyped
    | BooleanType(name: string)
    | StringType(name: string)
    | NumericType(name: string)
    | OtherType(name: string)
  {
    predicate IsUntyped() { Untyped? }
    predicate IsBooleanType() { BooleanType? }
    predicate IsStringType() { StringType? }
    predicate IsNumericType() { NumericType? }

    function ToString(): string {
      if Untyped? then "untyped" else name
    }
  }

  /** The common boolean type (`BoolType.INSTANCE`). */
  const Bool: Type := BooleanType("bool")

  /** The common string type (`StringType.INSTANCE`). */
  const Str: Type := StringType("string")

  /** Where a program element is defined: a source file that may be unknown
      (null), and a line and column where `-1` stands for unknown. */
  datatype CodeLocation = CodeLocation(sourceFile: Option<string>, line: int, col: int)

  /** The location of an element built without one. */
  const UnknownLocation: CodeLocation := CodeLocation(None, -1, -1)

  /** A source-level expression of a CFG (a node); `text` is what it prints as. */
  datatype Expression = Expression(node: nat, text: string)

  /** `StringUtils.join(items, sep)` over the printed forms of expressions. */
  function Join(items: seq<Expression>, sep: string): (r: string)
    ensures items == [] ==> r == ""
    ensures |items| == 1 ==> r == items[0].text
  {
    if items == [] then ""
    else if |items| == 1 then items[0].text
    else items[0].text + sep + Join(items[1..], sep)
  }
}

=== FILE: unresolved_call.dfy ===
/** Call nodes: the unresolved call built by front-ends and the calls it is
    resolved into. */
module Calls {
  import opened Wrappers
  import opened Types
  import opened Symbolic
  import opened Analysis
  import opened Cfgs
  import Parameters

  /** A resolution strategy, compared by identity. */
  datatype Strategy = Strategy(id: nat)

  /** The hash of a possibly null strategy: 0 for null. */
  function StrategyHash(strategy: Option<Strategy>): nat {
    match strategy
    case None => 0
    case Some(s) => s.id
  }

  /** The kind of a call node: unresolved (with its strategy, possibly null,
      and whether it is an overridable instance call), open (target outside
      the program), or bound to CFGs of the program. */
  datatype CallKind =
    | Unresolved(strategy: Option<Strategy>, instanceCall: bool)
    | Open
    | CfgCall

  /** The fixed data of a call, as a value: what an open call is built from. */
  datatype CallView = CallView(cfg: Cfg, location: CodeLocation, targetName: string, staticType: Type,
                               parameters: seq<Expression>)

  class Call {
    const cfg: Cfg
    const location: CodeLocation
    const kind: CallKind
    const targetName: string
    const staticType: Type
    const parameters: seq<Expression>
    var runtimeTypes: set<Type>
    var metaVariables: set<SymbolicExpression>

    constructor (cfg: Cfg, location: CodeLocation, kind: CallKind, targetName: string, staticType: Type,
                 parameters: seq<Expression>)
      ensures this.cfg == cfg && this.location == location && this.kind == kind
      ensures this.targetName == targetName && this.staticType == staticType && this.parameters == parameters
      ensures runtimeTypes == {} && metaVariables == {}
    {
      this.cfg := cfg;
      this.location := location;
      this.kind := kind;
      this.targetName := targetName;
      this.staticType := staticType;
      this.parameters := parameters;
      runtimeTypes := {};
      metaVariables := {};
    }

    function View(): CallView {
      CallView(cfg, location, targetName, staticType, parameters)
    }

    /** `UnresolvedCall.equals`: the same object, or equal as calls (the
        superclass comparison, given as `superEquals`), another unresolved
        call with the same instance flag, the same strategy object and an
        equal target name. */
    predicate Equals(other: Call?, superEquals: bool): (r: bool)
      requires kind.Unresolved?
      reads this, other
      ensures other == this ==> r
      ensures other != this ==>
                (r <==> superEquals && other != null && other.kind == kind && other.targetName == targetName)
    {
      other == this ||
      (superEquals && other != null && other.kind.Unresolved? &&
       other.kind.instanceCall == kind.instanceCall && other.kind.strategy == kind.strategy &&
       other.targetName == targetName)
    }

    /** `UnresolvedCall.hashCode` from the superclass hash, the flag, the
        strategy and the name; the 32-bit wrap-around is not modelled. */
    function HashCode(superHash: int): int
      requires kind.Unresolved?
    {
      31 * (31 * (31 * superHash + (if kind.instanceCall then 1231 else 1237)) + StrategyHash(kind.strategy))
        + Parameters.StringHash(targetName)
    }

    /** `UnresolvedCall.toString`. */
    function ToString(): (r: string)
      ensures |r| == 12 + |targetName| + 1 + |Join(parameters, ", ")| + 1
      ensures r[..12] == "[unresolved]" && r[12..12 + |targetName|] == targetName
      ensures r[12 + |targetName|] == '(' && r[|r| - 1] == ')'
      ensures r[12 + |targetName| + 1..|r| - 1] == Join(parameters, ", ")
    {
      "[unresolved]" + targetName + "(" + Join(parameters, ", ") + ")"
    }

    /** `UnresolvedCall.callSemantics`. `resolve` is the interprocedural
        analysis' resolution of this call. `delegate` is the semantics of the
        resolved call given its runtime types: the post-state and the
        meta-variables the resolved call creates while computing it. A
        resolution failure becomes a semantic error and changes nothing;
        otherwise the resolved call inherits this call's runtime types and
        computes the result, and this call takes over every meta-variable the
        resolved call holds afterwards. */
    method CallSemantics<S>(entryState: S, resolve: Call -> Result<Call, Error>,
                            delegate: (Call, set<Type>, S) -> Result<(S, set<SymbolicExpression>), Error>)
      returns (r: Result<S, Error>)
      requires kind.Unresolved?
      requires resolve(this).Ok? ==> allocated(resolve(this).value)
      modifies this, if resolve(this).Ok? then {resolve(this).value} else {}
      ensures runtimeTypes == old(runtimeTypes)
      ensures resolve(this).Err? ==>
                r == Err(SemanticError("Unable to resolve call " + ToString())) && metaVariables == old(metaVariables)
      ensures resolve(this).Ok? ==>
                var resolved := resolve(this).value;
                var outcome := delegate(resolved, old(runtimeTypes), entryState);
                && resolved.runtimeTypes == old(runtimeTypes)
                && (outcome.Err? ==> r == Err(outcome.error) && metaVariables == old(metaVariables))
                && (outcome.Ok? ==>
                      && r == Ok(outcome.value.0)
                      && resolved.metaVariables == old(resolved.metaVariables) + outcome.value.1
                      && metaVariables == old(metaVariables) + resolved.metaVariables)
    {
      var resolution := resolve(this);
      if resolution.Err? {
        return Err(SemanticError("Unable to resolve call " + ToString()));
      }
      var resolved := resolution.value;
      resolved.runtimeTypes := runtimeTypes;
      var outcome := delegate(resolved, resolved.runtimeTypes, entryState);
      if outcome.Err? {
        return Err(outcome.error);
      }
      resolved.metaVariables := resolved.metaVariables + outcome.value.1;
      metaVariables := metaVariables + resolved.metaVariables;
      r := Ok(outcome.value.0);
    }

    /** `inheritRuntimeTypesFrom`: this call takes the runtime types of
        another expression, given here as that expression's set. */
    method InheritRuntimeTypesFrom(otherRuntimeTypes: set<Type>)
      modifies this`runtimeTypes
      ensures runtimeTypes == otherRuntimeTypes
    {
      runtimeTypes := otherRuntimeTypes;
    }
  }

  /** Equal unresolved calls hash equally, given a superclass hash that
      agrees with the superclass comparison. */
  lemma EqualCallsHashEqually(a: Call, b: Call, superEquals: bool, superHashA: int, superHashB: int)
    requires a.kind.Unresolved? && b.kind.Unresolved?
    requires (superEquals || a == b) ==> superHashA == superHashB
    requires a.Equals(b, superEquals)
    ensures a.HashCode(superHashA) == b.HashCode(superHashB)
  {
  }

  /** The constructor with a static type: a null target name is rejected; a
      null strategy (`None`) is accepted. */
  method NewUnresolvedCall(cfg: Cfg, location: CodeLocation, strategy: Option<Strategy>, instanceCall: bool,
                           targetName: Option<string>, staticType: Type, parameters: seq<Expression>)
    returns (r: Result<Call, Error>)
    ensures r.Err? <==> targetName.None?
    ensures r.Err? ==> r.error == NullPointer
    ensures r.Ok? ==> fresh(r.value) && r.value.kind == Unresolved(strategy, instanceCall) &&
                      r.value.View() == CallView(cfg, location, targetName.value, staticType, parameters)
  {
    if targetName.None? {
      return Err(NullPointer);
    }
    var call := new Call(cfg, location, Unresolved(strategy, instanceCall), targetName.value, staticType, parameters);
    return Ok(call);
  }

  /** The constructor without a static type: the call is `Untyped`. */
  method NewUntypedUnresolvedCall(cfg: Cfg, location: CodeLocation, strategy: Option<Strategy>, instanceCall: bool,
                                  targetName: Option<string>, parameters: seq<Expression>)
    returns (r: Result<Call, Error>)
    ensures r.Err? <==> targetName.None?
    ensures r.Err? ==> r.error == NullPointer
    ensures r.Ok? ==> fresh(r.value) && r.value.kind == Unresolved(strategy, instanceCall) &&
                      r.value.View() == CallView(cfg, location, targetName.value, Untyped, parameters)
  {
    r := NewUnresolvedCall(cfg, location, strategy, instanceCall, targetName, Untyped, parameters);
  }

  /** Two distinct calls with a null strategy, the same instance flag and
      the same name are equal exactly when the superclass comparison holds,
      and then hash as with strategy hash 0; a call with a non-null strategy
      never equals one with a null strategy. */
  lemma NullStrategiesCompareEqual(a: Call, b: Call, c: Call, superEquals: bool)
    requires a != b && a != c && a.kind.Unresolved? && a.kind.strategy.None?
    requires b.kind == a.kind && b.targetName == a.targetName
    requires c.kind.Unresolved? && c.kind.strategy.Some?
    ensures a.Equals(b, superEquals) <==> superEquals
    ensures !a.Equals(c, superEquals)
    ensures a.HashCode(0) == 31 * (31 * (if a.kind.instanceCall then 1231 else 1237)) + Parameters.StringHash(a.targetName)
  {
  }
}

=== FILE: wrappers.dfy ===
/** Failure-compatible wrappers used throughout the model: `Option` stands for
    a Java reference that may be null, `Result` for a value or a thrown exception. */
module Wrappers {

  datatype Option<+T> = None | Some(value: T)

  datatype Result<+T, +E> = Ok(value: T) | Err(error: E) {
    predicate IsFailure() { Err? }

    function PropagateFailure<U>(): Result<U, E>
      requires Err?
    {
      Err(error)
    }

    function Extract(): T
      requires Ok?
    {
      value
    }
  }
}
